=== FILE: README.md ===
# openVDFS in Dafny

A model of the core of openVDFS, a reader for the VDF archives ("volumes") of the
games Gothic and Gothic 2. A volume starts with a 296-byte header: a 256-byte comment,
the 16-byte version marker `PSVDSC_V2.00\r\n\r\n`, and six little-endian 32-bit words
(entry count, file count, time stamp, size, table offset, entry size). The header is
followed directly by 80-byte entry rows. Each row holds a 64-byte space-padded name,
an offset, a size, a flags word and an attributes word. Flag bit 31 marks a directory
row and bit 30 marks the last row of a directory's run.

Mounting a volume (`VDFS::addVDFVolume`) rebuilds the directory tree from the flat
table with a queue of directories still waiting for their children. Each row lands in
the directory at the front of the queue. A directory row appends its subdirectory to
the back, and a last row pops the front. A file row adds a `FileEntry` leaf that records
the volume, the byte range and the header's time stamp. It replaces an existing leaf
only when its time stamp is strictly greater. Mounts accumulate in one tree. Lookups
walk the tree one `/`-separated segment at a time. `VDFS::fileExist` first turns every
`\` into `/`; `getFileInfo` builds that form too but then looks up the caller's
original text, and `getFile`, which goes through `getFileInfo`, inherits this.
Extraction reads a leaf's bytes from its origin volume in 4096-byte chunks.

The model is split into six modules:

- `Prelude`: bytes, 32-bit words, `Option`, and the file system as a map from path to contents.
- `Format`: the header and row layouts with decoders, matching encoders and round-trip lemmas.
- `Tree`: `FileEntry` and directory nodes, and the `fileExist`, `getFile` and `directoryEntryExist` walks.
- `Loader`: the row merge, the queue discipline, `Mount`, and the lemmas on growth, idempotence and override order.
- `Vdfs`: the `VDFS` facade (normalisation, existence and lookup queries, chunked extraction).
- `Examples`: concrete volumes mounted end to end.

The queue holds paths from the root rather than node pointers. Nodes are never moved
or removed while a pass runs, so a path names the same node throughout.
`Loader.ScheduleInTree` proves every queued path exists when its row is applied.
`Loader.MergeIsPlanned` splits the pass in two. The queue alone decides where each row
lands (`Loader.Schedule`), and the tree is those rows applied in order.

Four places where the code does something its authors evidently did not intend are
listed under "## Findings". Each is modelled twice: once as written, with a lemma
exhibiting the discrepancy, and once corrected, with a lemma saying where the two agree.
Extraction (`Vdfs.FileContents`, `Vdfs.ExtractFile`) follows the source's
lookup as written; `Vdfs.IntendedContents` is the corrected extraction. The mount
pass (`Loader.Mount`) uses the corrected file-row branch, and
`Loader.MountAgreesWithoutSlash` shows that the pass as written (`Loader.MountAsWritten`)
builds the same tree for every volume whose row names hold no `/`. The chunked read
(`Vdfs.ReadChunked`) uses an unbounded counter, which `Vdfs.ChunkGuardAgrees`
shows is the 32-bit one for every size up to 0xFFFFF000.

## Model

| member | source | states |
|---|---|---|
| `Format.VersionMarkerSpellsText` | openVDFS.cpp:29 | The 16 marker bytes are the characters of `PSVDSC_V2.00\r\n\r\n`. |
| `Format.FlagMasksIndependent` | include/openVDFS.hpp:39-40 | The directory and last-entry masks test independent bits: any pair of bit choices, with any lower bits, reads back as chosen. |
| `Format.WordRoundTrip` | include/openVDFS.hpp:45-50 | A 32-bit header or row word stored as four little-endian bytes reads back unchanged. |
| `Format.WordOf` | openVDFS.cpp:101-106 | The value of four bytes read into a 32-bit word on a little-endian host: the first byte is least significant. |
| `Format.Word` | openVDFS.cpp:133-136 | The 32-bit word a header or row field at a given position reads as, from the four bytes there. |
| `Format.IsDirectory` | openVDFS.cpp:138 | Whether the flags word has bit 31, the directory mask, set. |
| `Format.IsLast` | openVDFS.cpp:169 | Whether the flags word has bit 30, the last-entry mask, set. |
| `Format.DecodeHeader` | openVDFS.cpp:87-111 | A header exists exactly when the volume holds all 296 header bytes and the 16 bytes after the comment are the version marker. |
| `Format.HeaderRoundTrip` | include/openVDFS.hpp:42-51 | A header written as comment, marker and six words, followed by anything, decodes to the same six words. |
| `Format.CString` | openVDFS.cpp:142 | The string built from a name buffer is every byte before the first NUL, or the whole buffer when it holds no NUL. |
| `Format.Blank` | openVDFS.cpp:130-131 | The name buffer after every space byte is overwritten with NUL and every other byte is kept. |
| `Format.DecodeName` | openVDFS.cpp:129-131 | The key of a 64-byte name field is its prefix before the first space or NUL; no key byte is a space or NUL. |
| `Format.DecodedNameValid` | openVDFS.cpp:129-131 | Every decoded name fits in 64 bytes and holds no space or NUL. |
| `Format.NameRoundTrip` | openVDFS.cpp:129-131 | A valid name, space-padded to 64 bytes, decodes back to itself. |
| `Format.DecodeRow` | openVDFS.cpp:129-136 | A row exists exactly when all 80 of its bytes are in the volume, and its name is the decoded name field. |
| `Format.RowRoundTrip` | include/openVDFS.hpp:53-59 | An encoded row, at any position, decodes to the row written. |
| `Format.VolumeHeader` | openVDFS.cpp:89-106 | The header of an encoded volume decodes to the header written. |
| `Format.VolumeRow` | openVDFS.cpp:126-136 | Row i of an encoded volume decodes to the i-th row written, and the row just past the last one is missing. |
| `Tree.DirectoryEntryExist` | openVDFS.cpp:228-232 | Whether the node has a direct subdirectory of that name. |
| `Tree.FileExist` | openVDFS.cpp:206-226 | With no `/` in the path, whether the node has a file of that name; otherwise whether the text before the first `/` names a subdirectory in which the rest exists. |
| `Tree.GetFile` | openVDFS.cpp:261-285 | The same walk, yielding the leaf at its end or nothing. |
| `Tree.DirectoryEntryExistIsOneStep` | openVDFS.cpp:228-232 | `directoryEntryExist` is true exactly when the one-step path to that name leads to a directory; it never walks deeper. |
| `Tree.Find` | openVDFS.cpp:217-218 | The first-separator position holds the separator, and no earlier position does. |
| `Tree.FileExistIffGetFile` | openVDFS.cpp:206-285 | `fileExist` and `getFile` walk the same way: a path exists exactly when it yields a leaf. |
| `Tree.FindStoredFile` | openVDFS.cpp:261-285 | For directory and file names without `/`, looking up the `/`-joined text of a directory path and a name yields exactly the leaf stored there, and nothing when the directory or the file is missing. |
| `Tree.HasDirSnoc` | openVDFS.cpp:140-150 | A path extended by one name leads to a directory exactly when its parent holds that subdirectory, and then to that subdirectory. |
| `Loader.NewEntry` | openVDFS.cpp:36-42 | A new leaf stores the volume path, the row's offset and size, and the header's time stamp, each unchanged. |
| `Loader.ApplyRow` | openVDFS.cpp:138-166 | A directory row leaves the files alone, keeps every existing subdirectory as it is and adds an empty one under a new name. A file row leaves the subdirectories and the other files alone, inserts its entry or replaces a strictly older one, and otherwise changes nothing. |
| `Loader.ApplyAt` | openVDFS.cpp:128-166 | The row applied to the directory that the queue-front path names; a path that leads nowhere changes nothing. |
| `Loader.ApplyAtFrame` | openVDFS.cpp:128-166 | One row leaves the files and the subdirectory names of every other directory unchanged. The only directory it can create is the empty subdirectory a directory row names under an existing queue-front directory. |
| `Loader.NextQueue` | openVDFS.cpp:138-170 | A directory row appends its subdirectory's path at the back, and a last row drops the front; every other queued path keeps its order. |
| `Loader.Merge` | openVDFS.cpp:126-177 | A pass that reports success has read every row the header announces from within the volume. |
| `Loader.Mount` | openVDFS.cpp:77-190 | A missing volume or a bad header leaves the tree untouched and fails. A successful mount had the volume, the full header, the version marker and the whole table. |
| `Loader.Schedule` | openVDFS.cpp:126-170 | A complete schedule assigns a directory to every announced row, and an incomplete one to fewer. |
| `Loader.MergeIsPlanned` | openVDFS.cpp:126-177 | The one-pass merge equals the queue's schedule applied row by row, with the schedule's completeness as the verdict. |
| `Loader.ApplyAtKeeps` | openVDFS.cpp:138-166 | Applying a row anywhere keeps every existing directory, and each keeps its subdirectories and files, none older. |
| `Loader.MergeExtends` | openVDFS.cpp:126-177 | A pass, even a failing one, only adds directories and files, and replaces a file only by a strictly newer one. |
| `Loader.MountExtends` | openVDFS.cpp:77-190 | A mount only adds to the tree of earlier mounts: directories are extended, never replaced, and files are replaced only by strictly newer ones. |
| `Loader.QueueStep` | openVDFS.cpp:138-170 | If every queued path leads to a directory before a row, the same holds after it. |
| `Loader.ScheduleInTree` | openVDFS.cpp:126-170 | Every row's target directory exists in the tree when that row is applied. |
| `Loader.ApplyAllSatisfies` | openVDFS.cpp:126-177 | After a pass, each of its rows is reflected in the tree: its subdirectory exists, or its file is present with a time stamp at least the volume's. |
| `Loader.ApplyAllNoop` | openVDFS.cpp:140-166 | Rows already reflected in the tree change nothing when applied again. |
| `Loader.MountIdempotent` | openVDFS.cpp:77-190 | Mounting a volume a second time gives the same tree and verdict as mounting it once. |
| `Loader.MountReflects` | openVDFS.cpp:113-177 | After a mount every row the pass reached (all of the table's rows when the mount succeeds) is in the tree: each directory row's subdirectory exists, and each file row's file is present with a time stamp at least the volume's. |
| `Loader.ApplyAtBuiltFrom` | openVDFS.cpp:128-166 | After one row every directory existed before or is the subdirectory the row names, and every file is the entry stored there before or the row's new entry at its directory and name. |
| `Loader.BuiltFromCompose` | openVDFS.cpp:126-177 | Rows merged in two successive runs add only what the rows of either run name. |
| `Loader.ApplyAllBuiltFrom` | openVDFS.cpp:126-177 | A sequence of rows adds only what they name: directories their directory rows name, and files their file rows create at that directory and name. |
| `Loader.MountBuiltFrom` | openVDFS.cpp:77-190 | A mount adds only what the rows its pass reached name. Every directory of the new tree was there before or is a directory row's subdirectory. Every file is the entry stored there before or the entry a file row of the volume creates at that place, with the volume's path and time stamp. |
| `Loader.ApplyAtKeepsNewer` | openVDFS.cpp:155-166 | Merging one row anywhere leaves unchanged a stored entry whose time stamp is at least the row's volume's. |
| `Loader.ApplyAllKeepsNewer` | openVDFS.cpp:113-177 | Merging a sequence of rows leaves unchanged a stored entry whose time stamp is at least their volume's. |
| `Loader.MountKeepsNewer` | openVDFS.cpp:77-190 | A mount leaves unchanged, in its directory, every stored entry whose time stamp is at least the volume's. |
| `Loader.NewerSurvivesOlder` | openVDFS.cpp:155-166 | A row reflected at time stamp `ts` stays reflected through the mount of a volume no newer than `ts`, and the file it names keeps exactly its entry. |
| `Loader.NewerRowWins` | openVDFS.cpp:77-190 | One row of the newer of two volumes is reflected after mounting them in either order, and with the newer first its file entry is kept exactly. |
| `Loader.NewerVolumeWins` | openVDFS.cpp:77-190 | For any two volumes, mounted in either order, every directory and file the newer one's table names is present afterwards, each file with a time stamp at least the newer volume's; when the newer is mounted first, each of its file entries is kept exactly by the older one. |
| `Loader.OverrideOrderIndependent` | openVDFS.cpp:155-166 | Two file rows for one name with different time stamps give the same directory in either order; when the name is not yet stored, the entry with the greater time stamp wins. |
| `Loader.RowIdempotent` | openVDFS.cpp:138-166 | A row applied twice under one time stamp has the effect of applying it once. |
| `Loader.AsWrittenAgreesWithoutSlash` | openVDFS.cpp:155-166 | For names without `/`, the written file-row branch, which tests existence with the path walk, agrees with the map-lookup version. |
| `Loader.SlashNameLetsOlderWin` | openVDFS.cpp:157-165 | A row named `A/B` with time stamp 1 replaces a stored `A/B` entry with time stamp 5 as written; the corrected branch keeps the newer entry. |
| `Loader.SlashNameDereferencesNull` | openVDFS.cpp:157-162 | A row named `A/B` whose walk finds `B` in subdirectory `A`, while the file map has no `A/B`, reaches the dereference of a missing entry. |
| `Loader.ApplyRowAsWritten` | openVDFS.cpp:138-166 | The row merge with the file-row branch as written: existence is tested with the path walk, and `None` stands for the null dereference. |
| `Loader.ApplyAtAsWritten` | openVDFS.cpp:128-166 | The written row merge applied at the directory a queue path names. |
| `Loader.MergeAsWritten` | openVDFS.cpp:126-177 | The pass over the table with the written row merge; `None` when a row dereferences null. |
| `Loader.MountAsWritten` | openVDFS.cpp:77-190 | `VDFS::addVDFVolume` with the written row merge. |
| `Loader.ApplyAtAgreesWithoutSlash` | openVDFS.cpp:155-166 | For a row name without `/`, the written merge at any path gives the corrected merge's tree. |
| `Loader.MergeAgreesWithoutSlash` | openVDFS.cpp:126-177 | When every row of the table has a name without `/`, the written pass never dereferences null and gives the corrected pass's tree and verdict. |
| `Loader.MountAgreesWithoutSlash` | openVDFS.cpp:77-190 | For a volume whose row names hold no `/`, the written mount gives exactly the tree and verdict of `Loader.Mount`, so every property proved of `Loader.Mount` holds of the source on such volumes. |
| `Vdfs.Normalize` | openVDFS.cpp:236-238 | The path with every `\` replaced by `/`. |
| `Vdfs.NormalizeSettles` | openVDFS.cpp:236-238 | A normalised path holds no `\`, normalising again changes nothing, and a path with no `\` is already normal. |
| `Vdfs.NormalizeInPlace` | openVDFS.cpp:236-238 | Replacing the first `\` by `/` until none is left gives the path with every `\` turned into `/`. |
| `Vdfs.VolumeFileExistAsWritten` | openVDFS.cpp:234-241 | `VDFS::fileExist` as written: after normalising, a path without `/` is reported present when the root has no file of that name; otherwise the root's walk decides. |
| `Vdfs.VolumeFileExist` | openVDFS.cpp:234-241 | `VDFS::fileExist` as evidently intended: the root's walk on the normalised path. |
| `Vdfs.FileExistInverted` | openVDFS.cpp:234-241 | The written `VDFS::fileExist` agrees with the intended query on paths with a separator and is its negation on single names. |
| `Vdfs.SeparatorsInterchangeable` | openVDFS.cpp:234-241 | Both versions of the query answer the same for a path and its `\`-to-`/` normal form. |
| `Vdfs.FileInfoAsWritten` | openVDFS.cpp:287-298 | `VDFS::getFileInfo` as written: the root's walk on the caller's original text. |
| `Vdfs.FileInfo` | openVDFS.cpp:287-298 | The intended lookup yields a leaf exactly when the intended existence query is true. |
| `Vdfs.FileInfoAgreesWithoutBackslash` | openVDFS.cpp:287-298 | The written and the intended lookup agree on every path without `\`. |
| `Vdfs.FileInfoDropsNormalisation` | openVDFS.cpp:292-295 | In a tree with `A` holding `B`, `fileExist("A\B")` is true and the intended lookup finds the leaf, but the written lookup finds nothing. |
| `Vdfs.ReadAt` | openVDFS.cpp:313-321 | The bytes one `fread` into the buffer delivers from a position; bytes past the end of the volume read as 0. |
| `Vdfs.ReadAtConcat` | openVDFS.cpp:313-321 | Consecutive reads from one position cover one contiguous range of the file. |
| `Vdfs.ReadChunked` | openVDFS.cpp:310-321 | The chunked read delivers exactly `size` bytes from `offset`. The chunks start 4096 apart from `offset`, all but the last are full, and the last holds 1 to 4096 bytes and ends at `offset + size`. |
| `Vdfs.ContentsOf` | openVDFS.cpp:305-324 | For a found entry of positive size whose origin volume opens, `size` bytes from `offset` of that volume; otherwise nothing. |
| `Vdfs.FileContents` | openVDFS.cpp:300-327 | `VDFS::getFile` as written: the contents of the entry the written `getFileInfo` finds. |
| `Vdfs.IntendedContents` | openVDFS.cpp:300-327 | `VDFS::getFile` as evidently intended: the contents of the entry the normalised lookup finds. |
| `Vdfs.ExtractFile` | openVDFS.cpp:300-327 | Extraction through the written lookup and the chunked read returns the entry's bytes from its origin volume, and nothing for a missing entry, an empty one or a volume that is gone; a result is exactly `size > 0` bytes long. |
| `Vdfs.ExtractionAgreesWithoutBackslash` | openVDFS.cpp:300-327 | The written and the intended extraction agree on every path without `\`. |
| `Vdfs.ExtractionDropsNormalisation` | openVDFS.cpp:295-303 | With `A` holding a five-byte `B`, the written `getFile("A\B")` returns nothing, while the intended extraction returns the five bytes. |
| `Vdfs.StoredLeafExtracts` | openVDFS.cpp:300-327 | Every non-empty leaf whose directory and file names hold no `/` or `\` and whose origin volume opens is extracted, through its `/`-joined path, as exactly `size` bytes from `offset` of that volume, by the written and by the intended extraction alike. |
| `Vdfs.SlashLeafUnreachable` | openVDFS.cpp:206-226 | A root leaf stored under `A/B` is not found by `fileExist("A/B")`, and neither extraction returns it. |
| `Vdfs.ChunkGuardAsWritten` | openVDFS.cpp:315 | The extraction loop's guard `bytes_read + 4096 < size` with the sum taken modulo 2^32. |
| `Vdfs.NextBytesReadAsWritten` | openVDFS.cpp:318 | The counter after one full chunk, `bytes_read + 4096` taken modulo 2^32. |
| `Vdfs.ChunkGuardAgrees` | openVDFS.cpp:315-318 | For sizes up to 0xFFFFF000 the 32-bit loop guard and counter of the extraction loop never wrap. |
| `Vdfs.ChunkLoopWrapsAsWritten` | openVDFS.cpp:315-318 | For size 0xFFFFFFFF every chunk boundary passes the 32-bit guard. At 0xFFFFF000 the next chunk runs past the buffer and the counter wraps to 0. |
| `Examples.ThreeRowVolume` | openVDFS.cpp:113-177 | Rows [README.TXT, DATA directory and last, A.TXT last] give a root holding README.TXT and DATA, with DATA holding A.TXT. |
| `Examples.ThreeRowLookups` | openVDFS.cpp:206-226 | In that tree the root holds README.TXT, and A.TXT only one level down. |
| `Examples.NestedLookup` | openVDFS.cpp:261-285 | In that tree `DATA/A.TXT` is found, and it is the A.TXT leaf. |
| `Examples.ThreeRowFacadeQueries` | openVDFS.cpp:234-241 | In that tree the written query calls README.TXT absent and A.TXT present at the root; the intended one says the opposite, and `DATA\A.TXT` is found. |
| `Examples.NewerVolumeWinsEitherOrder` | openVDFS.cpp:153-166 | A base volume (time stamp 100) and a patch (time stamp 200) holding the same file give the patch's entry in either mount order. |
| `Examples.TruncatedTableFails` | openVDFS.cpp:126-136 | A header announcing two rows over a one-row table fails with the first row merged. |
| `Examples.EmptyQueueFails` | openVDFS.cpp:126-128 | A first row flagged last empties the queue, so the mount fails before the second row with only the first merged. |

## Left out

- File access (`fopen`, `fread`, `fseek`, `fclose`) is modelled as a map from path to contents. A volume that cannot be opened is a missing key.
- Vdfs.ReadAt: bytes a short read leaves unfilled are uninitialised in the source; the model reads them as 0.
- Format.DecodeName: a name field holding no space or NUL is read by the source past the end of its 64 bytes; the model takes all 64 bytes.
- Loader.Merge: a table cut short by the end of the volume is not detected by the source, which goes on with stale row fields and reports success. The model stops there and reports failure, keeping the rows merged before it.
- Loader.Merge: a row due while the queue is empty makes the source read the front of an empty queue, which is undefined. The model reports failure, keeping the rows merged before it.
- Format.DecodeHeader: fails every volume shorter than 296 bytes, which is the source's verdict at every length: under 256 bytes the marker comparison is skipped, and from 256 to 295 bytes the end-of-file flag set by the short reads makes the check after them false. What the model does not represent is the source's comparison of the marker against uninitialised bytes for volumes of 256 to 271 bytes, which cannot change that verdict.
- The 0x1A clean-up of the comment (openVDFS.cpp:90-91) only changes a field nothing reads, so it is not modelled.
- The header's file count, size, table offset and entry size are decoded but not used, as in the source: the rows are read directly after the header.
- The debug output (`DEBUG_LOG`), `DirectoryEntry::printAll`, the singleton `getInstance`/`destroyInstance`, the destructors, `getRootEntry` and the unused `sz_realPath` have no effect on the tree or the query results, so they are not modelled.
- `test/main.cpp` is a command-line driver and is not part of this model.
- A name may be the key of a file and of a subdirectory in the same node, since the two maps are independent in the source; the model allows this too.
- Loader.ApplyRow: models the corrected file-row branch, which tests the file map. The source tests with the path walk, so for a row name holding `/` an older entry can win or null is dereferenced (`Loader.SlashNameLetsOlderWin`, `Loader.SlashNameDereferencesNull`). For names without `/` the two agree (`Loader.AsWrittenAgreesWithoutSlash`).
- Loader.ApplyAtKeeps: "none older" is proved of the corrected row merge. It holds of the source for row names without `/` (`Loader.ApplyAtAgreesWithoutSlash`), not for names holding `/`.
- Loader.MergeExtends: "replaced only by a strictly newer one" is proved of the corrected pass. It holds of the source for tables whose row names hold no `/` (`Loader.MergeAgreesWithoutSlash`), not otherwise.
- Loader.MountExtends: proved of the corrected mount. It holds of the source for volumes whose row names hold no `/` (`Loader.MountAgreesWithoutSlash`), not otherwise.
- Loader.MountIdempotent: proved of the corrected mount. It carries over to the source through `Loader.MountAgreesWithoutSlash` for volumes whose row names hold no `/`.
- Loader.OverrideOrderIndependent: proved of the corrected row merge. It holds of the source for names without `/` (`Loader.AsWrittenAgreesWithoutSlash`), not for names holding `/`. It is a statement about two rows; at the level of whole mounts, `Loader.NewerVolumeWins` proves that the newer volume's files are present with a time stamp at least its own in either order, but not that the surviving entry is the newer volume's own entry when the older volume was mounted first; that exact equality is proved only for two single rows and for the volumes of `Examples.NewerVolumeWinsEitherOrder`.
- Loader.MountReflects: proved of the corrected mount. It carries over to the source through `Loader.MountAgreesWithoutSlash` for volumes whose row names hold no `/`.
- Loader.ApplyAtKeepsNewer: proved of the corrected row merge. In the source a file row whose name holds `/` can replace a newer entry of that name (`Loader.SlashNameLetsOlderWin`); for names without `/` the source's merge is the corrected one (`Loader.ApplyAtAgreesWithoutSlash`).
- Loader.ApplyAllKeepsNewer: proved of the corrected rows. For names holding `/` the source can let an older row replace a newer entry (`Loader.SlashNameLetsOlderWin`); for tables without such names the source's pass is the corrected one (`Loader.MergeAgreesWithoutSlash`).
- Loader.MountKeepsNewer: proved of the corrected mount. For volumes whose row names hold no `/` it carries over to the source through `Loader.MountAgreesWithoutSlash`; a volume with a `/`-named file row can replace a newer entry in the source.
- Loader.NewerSurvivesOlder: proved of the corrected mount. It holds of the source when the older volume's row names hold no `/` (`Loader.MountAgreesWithoutSlash`), not otherwise.
- Loader.NewerRowWins: proved of the corrected mounts. It holds of the source for two volumes whose row names hold no `/` (`Loader.MountAgreesWithoutSlash`), not otherwise.
- Loader.NewerVolumeWins: proved of the corrected mounts. It holds of the source for two volumes whose row names hold no `/` (`Loader.MountAgreesWithoutSlash`), not otherwise. When the older volume is mounted first, it proves only that each of the newer volume's files ends up with a time stamp at least the newer one's, not that the entry is the newer volume's own. That exact equality is proved only for two single rows (`Loader.OverrideOrderIndependent`) and for the volumes of `Examples.NewerVolumeWinsEitherOrder`.
- Loader.ApplyAtFrame: proved of the corrected row merge. It carries over to the source for rows whose names hold no `/` (`Loader.ApplyAtAgreesWithoutSlash`); for a `/`-named file row it is not proved of the source.
- Loader.ApplyAtBuiltFrom: proved of the corrected row merge. It carries over to the source for rows whose names hold no `/` (`Loader.ApplyAtAgreesWithoutSlash`); for a `/`-named file row it is not proved of the source.
- Loader.ApplyAllBuiltFrom: proved of the corrected merge. It carries over to the source for rows whose names hold no `/` (`Loader.MergeAgreesWithoutSlash`); for a `/`-named file row it is not proved of the source.
- Loader.MountBuiltFrom: proved of the corrected mount. It carries over to the source for volumes whose row names hold no `/` (`Loader.MountAgreesWithoutSlash`); for a `/`-named file row it is not proved of the source.
- Vdfs.StoredLeafExtracts: covers only leaves whose directory and file names hold no `/` or `\`. In the source a leaf stored under a name holding `/` cannot be reached by any lookup, because the walk splits the path at that `/` (`Vdfs.SlashLeafUnreachable`). A root leaf named `X\Y` is still found by the written extraction through `X\Y`, and not by the intended one.
- Vdfs.ReadChunked: the counter is unbounded. The source's 32-bit guard agrees with it for sizes up to 0xFFFFF000 (`Vdfs.ChunkGuardAgrees`); above that the source's loop wraps, overruns its buffer and never ends (`Vdfs.ChunkLoopWrapsAsWritten`), which the method does not model.
- Vdfs.ExtractFile: reads through `Vdfs.ReadChunked`, so for entry sizes above 0xFFFFF000 it returns the bytes where the source never returns.

## Findings

| source | as written | input that shows it | evidently intended | confidence | as-written member | corrected member |
|---|---|---|---|---|---|---|
| openVDFS.cpp:240 | A path without `/` is reported present when the root holds no file of that name (`find == end()`). | Root holding README.TXT, query `README.TXT`: false; query `A.TXT` for a file one level down: true. | Report it present when the root holds it (`find != end()`). | not executed | `Vdfs.FileExistInverted` | `Vdfs.VolumeFileExist` |
| openVDFS.cpp:295 | `getFileInfo` builds the `\`-to-`/` normal form and then looks up the caller's original text, so `VDFS::getFile` does the same. | Tree with `A` holding `B`: `fileExist("A\B")` is true, but `getFileInfo("A\B")` and `getFile("A\B")` are null. | Look up the normalised path. | not executed | `Vdfs.FileInfoDropsNormalisation` | `Vdfs.FileInfo` |
| openVDFS.cpp:157-162 | A file row tests whether its name exists with the `/`-splitting path walk, then indexes the file map directly. | A row named `A/B` (ts 1) over a stored `A/B` (ts 5) replaces the newer entry. With `A` holding `B` and no `A/B` key, the map lookup yields null and is dereferenced. | Test membership of the file map, as the directory branch does with `directoryEntryExist`. | not executed | `Loader.ApplyRowAsWritten` | `Loader.ApplyRow` |
| openVDFS.cpp:315 | `bytes_read + 4096 < size` is computed in 32-bit unsigned arithmetic. | An entry of size 0xFFFFFFFF: at `bytes_read` 0xFFFFF000 the guard still holds, the chunk overruns the buffer and the counter wraps to 0. | Compare without wrap-around, for example `size - bytes_read > 4096`. | not executed | `Vdfs.ChunkLoopWrapsAsWritten` | `Vdfs.ReadChunked` |

=== FILE: examples.dfy ===
/** Concrete volumes mounted end to end: the reconstruction of a small table, override
    ordering between two volumes, and the failure cases of the pass. */
module Examples {
  import opened Prelude
  import opened Format
  import opened Tree
  import opened Loader
  import opened Vdfs

  function VolumeHeaderFor(entryCount: u32, timeStamp: u32): Header {
    Header(entryCount, entryCount, timeStamp, 0, HeaderSize, RowSize)
  }

  const ReadmeRow := Row("README.TXT", 536, 5, 0, 0)
  const DataRow := Row("DATA", 0, 0, DirectoryEntryFlag + LastEntryFlag, 0)
  const ATxtRow := Row("A.TXT", 541, 3, LastEntryFlag, 0)

  const Readme := FileEntry("GAME.VDF", 536, 5, 7)
  const ATxt := FileEntry("GAME.VDF", 541, 3, 7)
  const ThreeRowTree := Dir(map["README.TXT" := Readme], map["DATA" := Dir(map["A.TXT" := ATxt], map[])])

  /** The flag words the examples use decode to the bits they were built from. */
  lemma ExampleFlags()
    ensures !IsDirectory(0) && !IsLast(0)
    ensures !IsDirectory(LastEntryFlag) && IsLast(LastEntryFlag)
    ensures IsDirectory(DirectoryEntryFlag + LastEntryFlag) && IsLast(DirectoryEntryFlag + LastEntryFlag)
  {
    FlagMasksIndependent(false, false, 0);
    FlagMasksIndependent(false, true, 0);
    FlagMasksIndependent(true, true, 0);
  }

  const AfterReadme := Dir(map["README.TXT" := Readme], map[])
  const AfterData := Dir(map["README.TXT" := Readme], map["DATA" := EmptyDir])

  /** Each row's effect on the tree and on the queue. */
  lemma ThreeRowSteps()
    ensures ApplyAt(EmptyDir, [], ReadmeRow, "GAME.VDF", 7) == AfterReadme
    ensures NextQueue([[]], ReadmeRow) == [[]]
    ensures ApplyAt(AfterReadme, [], DataRow, "GAME.VDF", 7) == AfterData
    ensures NextQueue([[]], DataRow) == [["DATA"]]
    ensures ApplyAt(AfterData, ["DATA"], ATxtRow, "GAME.VDF", 7) == ThreeRowTree
    ensures NextQueue([["DATA"]], ATxtRow) == []
  {
    ExampleFlags();
    var e: Path := [];
    assert e + [DataRow.name] == ["DATA"];
    assert ([e] + [["DATA"]])[1..] == [["DATA"]];
  }

  /** The pass over any volume whose header announces three rows stamped 7 and whose rows are
      [README.TXT file, DATA directory and last, A.TXT file and last]. */
  lemma ThreeRowPass(data: seq<byte>)
    requires DecodeHeader(data) == Some(VolumeHeaderFor(3, 7))
    requires DecodeRow(data, RowPos(0)) == Some(ReadmeRow)
    requires DecodeRow(data, RowPos(1)) == Some(DataRow)
    requires DecodeRow(data, RowPos(2)) == Some(ATxtRow)
    ensures Mount(EmptyDir, map["GAME.VDF" := data], "GAME.VDF") == LoadResult(true, ThreeRowTree)
  {
    ThreeRowSteps();
    MergeStep(EmptyDir, [[]], data, 0, 3, "GAME.VDF", 7, ReadmeRow);
    MergeStep(AfterReadme, [[]], data, 1, 3, "GAME.VDF", 7, DataRow);
    MergeStep(AfterData, [["DATA"]], data, 2, 3, "GAME.VDF", 7, ATxtRow);
  }

  /** Rows [README.TXT file, DATA directory and last, A.TXT file and last] give a root
      holding README.TXT and DATA, with DATA holding A.TXT. */
  lemma ThreeRowVolume(comment: seq<byte>)
    requires |comment| == CommentSize
    ensures var rows := [ReadmeRow, DataRow, ATxtRow];
            var store := map["GAME.VDF" := EncodeVolume(comment, VolumeHeaderFor(3, 7), rows)];
            Mount(EmptyDir, store, "GAME.VDF") == LoadResult(true, ThreeRowTree)
  {
    var rows := [ReadmeRow, DataRow, ATxtRow];
    assert ValidRows(rows);
    VolumeHeader(comment, VolumeHeaderFor(3, 7), rows);
    VolumeRow(comment, VolumeHeaderFor(3, 7), rows, 0);
    VolumeRow(comment, VolumeHeaderFor(3, 7), rows, 1);
    VolumeRow(comment, VolumeHeaderFor(3, 7), rows, 2);
    ThreeRowPass(EncodeVolume(comment, VolumeHeaderFor(3, 7), rows));
  }

  /** In that tree the root holds README.TXT, but A.TXT only one level down. */
  lemma ThreeRowLookups()
    ensures FileExist(ThreeRowTree, "README.TXT")
    ensures !FileExist(ThreeRowTree, "A.TXT")
  {
    assert SlashFree("README.TXT") && SlashFree("A.TXT");
  }

  /** The walk for DATA/A.TXT enters DATA and finds the leaf there. */
  lemma NestedLookup()
    ensures GetFile(ThreeRowTree, "DATA/A.TXT") == Some(ATxt)
    ensures FileExist(ThreeRowTree, "DATA/A.TXT")
  {
    var dirs: Path := ["DATA"];
    assert PathOf(dirs, "A.TXT") == "DATA/A.TXT";
    assert HasDir(ThreeRowTree, dirs) && DirAt(ThreeRowTree, dirs) == Dir(map["A.TXT" := ATxt], map[]) by {
      assert dirs[1..] == [];
    }
    FindStoredFile(ThreeRowTree, dirs, "A.TXT");
    FileExistIffGetFile(ThreeRowTree, "DATA/A.TXT");
  }

  lemma ExampleNormalForms()
    ensures Normalize("README.TXT") == "README.TXT" && Normalize("A.TXT") == "A.TXT"
    ensures Normalize("DATA\\A.TXT") == "DATA/A.TXT"
  {
  }

  /** The written facade query, inverted for single names, reports README.TXT absent and
      A.TXT present, while the intended one reports README.TXT present; a path with a
      separator, in either spelling, is answered by the walk. */
  lemma ThreeRowFacadeQueries()
    ensures !VolumeFileExistAsWritten(ThreeRowTree, "README.TXT") && VolumeFileExist(ThreeRowTree, "README.TXT")
    ensures VolumeFileExistAsWritten(ThreeRowTree, "A.TXT") && !VolumeFileExist(ThreeRowTree, "A.TXT")
    ensures VolumeFileExistAsWritten(ThreeRowTree, "DATA\\A.TXT")
  {
    ExampleNormalForms();
    ThreeRowLookups();
    NestedLookup();
  }

  const Base := Row("SPEECH.WAV", 400, 10, LastEntryFlag, 0)
  const Patch := Row("SPEECH.WAV", 900, 12, LastEntryFlag, 0)

  lemma OneRowMount(comment: seq<byte>, store: FileStore, root: Dir, name: string, row: Row, ts: u32)
    requires |comment| == CommentSize && ValidName(row.name) && !IsDirectory(row.flags)
    requires name in store && store[name] == EncodeVolume(comment, VolumeHeaderFor(1, ts), [row])
    ensures Mount(root, store, name) == LoadResult(true, ApplyRow(root, row, name, ts))
  {
    var data := store[name];
    VolumeHeader(comment, VolumeHeaderFor(1, ts), [row]);
    VolumeRow(comment, VolumeHeaderFor(1, ts), [row], 0);
    MergeStep(root, [[]], data, 0, 1, name, ts, row);
  }

  /** A base volume (time stamp 100) and a patch volume (time stamp 200), each holding one
      root file SPEECH.WAV. */
  function BaseAndPatch(comment: seq<byte>): FileStore
    requires |comment| == CommentSize
  {
    map["BASE.VDF" := EncodeVolume(comment, VolumeHeaderFor(1, 100), [Base]),
        "PATCH.VDF" := EncodeVolume(comment, VolumeHeaderFor(1, 200), [Patch])]
  }

  lemma BaseMounts(comment: seq<byte>, root: Dir)
    requires |comment| == CommentSize
    ensures Mount(root, BaseAndPatch(comment), "BASE.VDF") == LoadResult(true, ApplyRow(root, Base, "BASE.VDF", 100))
  {
    ExampleFlags();
    assert ValidName(Base.name);
    OneRowMount(comment, BaseAndPatch(comment), root, "BASE.VDF", Base, 100);
  }

  lemma PatchMounts(comment: seq<byte>, root: Dir)
    requires |comment| == CommentSize
    ensures Mount(root, BaseAndPatch(comment), "PATCH.VDF") == LoadResult(true, ApplyRow(root, Patch, "PATCH.VDF", 200))
  {
    ExampleFlags();
    assert ValidName(Patch.name);
    OneRowMount(comment, BaseAndPatch(comment), root, "PATCH.VDF", Patch, 200);
  }

  /** In either mount order the patch's SPEECH.WAV ends up in the tree. */
  lemma NewerVolumeWinsEitherOrder(comment: seq<byte>)
    requires |comment| == CommentSize
    ensures var store := BaseAndPatch(comment);
            var merged := Dir(map["SPEECH.WAV" := FileEntry("PATCH.VDF", 900, 12, 200)], map[]);
            && Mount(Mount(EmptyDir, store, "BASE.VDF").root, store, "PATCH.VDF") == LoadResult(true, merged)
            && Mount(Mount(EmptyDir, store, "PATCH.VDF").root, store, "BASE.VDF") == LoadResult(true, merged)
  {
    ExampleFlags();
    BaseMounts(comment, EmptyDir);
    PatchMounts(comment, ApplyRow(EmptyDir, Base, "BASE.VDF", 100));
    PatchMounts(comment, EmptyDir);
    BaseMounts(comment, ApplyRow(EmptyDir, Patch, "PATCH.VDF", 200));
    OverrideOrderIndependent(EmptyDir, Base, "BASE.VDF", 100, Patch, "PATCH.VDF", 200);
  }

  /** A header announcing two rows over a table holding one: the first row is merged and
      the mount reports failure at the row cut off by the end of the volume. */
  lemma TruncatedTableFails(comment: seq<byte>)
    requires |comment| == CommentSize
    ensures var data := EncodeVolume(comment, VolumeHeaderFor(2, 7), [ReadmeRow]);
            Mount(EmptyDir, map["GAME.VDF" := data], "GAME.VDF") == LoadResult(false, AfterReadme)
  {
    var data := EncodeVolume(comment, VolumeHeaderFor(2, 7), [ReadmeRow]);
    assert ValidRows([ReadmeRow]);
    VolumeHeader(comment, VolumeHeaderFor(2, 7), [ReadmeRow]);
    VolumeRow(comment, VolumeHeaderFor(2, 7), [ReadmeRow], 0);
    VolumeRow(comment, VolumeHeaderFor(2, 7), [ReadmeRow], 1);
    ThreeRowSteps();
    MergeStep(EmptyDir, [[]], data, 0, 2, "GAME.VDF", 7, ReadmeRow);
  }

  /** A first row flagged last closes the root's run and empties the queue, so the second
      row has no directory to land in: the mount fails with only the first row merged. */
  lemma EmptyQueueFails(comment: seq<byte>)
    requires |comment| == CommentSize
    ensures var data := EncodeVolume(comment, VolumeHeaderFor(2, 7), [ATxtRow, ReadmeRow]);
            Mount(EmptyDir, map["GAME.VDF" := data], "GAME.VDF") == LoadResult(false, Dir(map["A.TXT" := ATxt], map[]))
  {
    var rows := [ATxtRow, ReadmeRow];
    var data := EncodeVolume(comment, VolumeHeaderFor(2, 7), rows);
    assert ValidRows(rows);
    VolumeHeader(comment, VolumeHeaderFor(2, 7), rows);
    VolumeRow(comment, VolumeHeaderFor(2, 7), rows, 0);
    ExampleFlags();
    assert NextQueue([[]], ATxtRow) == [];
    MergeStep(EmptyDir, [[]], data, 0, 2, "GAME.VDF", 7, ATxtRow);
  }
}

=== FILE: format.dfy ===
/** On-disk layout of a VDF volume: the 296-byte header, the 80-byte entry rows,
    the flag bits and the space-padded names, with decoders and matching encoders. */
module Format {
  import opened Prelude

  const CommentSize: nat := 256
  const VersionSize: nat := 16
  /** Comment, version marker and six 32-bit words. */
  const HeaderSize: nat := 296
  const NameSize: nat := 64
  /** A 64-byte name and four 32-bit words. */
  const RowSize: nat := 80

  /** Flag bit 31: the row describes a directory. */
  const DirectoryEntryFlag: u32 := 0x8000_0000
  /** Flag bit 30: the row is the last one of its directory's run. */
  const LastEntryFlag: u32 := 0x4000_0000

  /** The version marker as text and as the bytes that must follow the comment. */
  const VersionText: string := "PSVDSC_V2.00\r\n\r\n"
  const VersionMarker: seq<byte> :=
    [0x50, 0x53, 0x56, 0x44, 0x53, 0x43, 0x5F, 0x56, 0x32, 0x2E, 0x30, 0x30, 0x0D, 0x0A, 0x0D, 0x0A]

  lemma VersionMarkerSpellsText()
    ensures |VersionMarker| == |VersionText| == VersionSize
    ensures forall j :: 0 <= j < VersionSize ==> VersionMarker[j] == VersionText[j] as int
  {
  }

  /** The six header words, in file order. */
  datatype Header = Header(entryCount: u32, fileCount: u32, timeStamp: u32,
                           size: u32, tableOffset: u32, entrySize: u32)

  /** One entry row, with its name already de-padded. */
  datatype Row = Row(name: string, offset: u32, size: u32, flags: u32, attributes: u32)

  /** `flags & DIRECTORY_ENTRY` is non-zero. */
  predicate IsDirectory(flags: u32) {
    flags / DirectoryEntryFlag % 2 == 1
  }

  /** `flags & LAST_ENTRY` is non-zero. */
  predicate IsLast(flags: u32) {
    flags / LastEntryFlag % 2 == 1
  }

  /** The two masks test independent bits: any choice of the two bits, with any
      lower bits, is read back as chosen. */
  lemma FlagMasksIndependent(directory: bool, last: bool, low: nat)
    requires low < LastEntryFlag
    ensures var flags := (if directory then DirectoryEntryFlag else 0)
                         + (if last then LastEntryFlag else 0) + low;
            flags < 0x1_0000_0000 && IsDirectory(flags) == directory && IsLast(flags) == last
  {
  }

  /** The value of four little-endian bytes. */
  function WordOf(b: seq<byte>): u32
    requires |b| == 4
  {
    var b0: int, b1: int, b2: int, b3: int := b[0], b[1], b[2], b[3];
    b0 + 0x100 * (b1 + 0x100 * (b2 + 0x100 * b3))
  }

  /** Little-endian 32-bit word at `pos`. */
  function Word(data: seq<byte>, pos: nat): u32
    requires pos + 4 <= |data|
  {
    WordOf(data[pos..pos + 4])
  }

  /** The four little-endian bytes of `x`. */
  function WordBytes(x: u32): (b: seq<byte>)
    ensures |b| == 4
  {
    [x % 0x100, x / 0x100 % 0x100, x / 0x1_0000 % 0x100, x / 0x100_0000]
  }

  lemma DivMod256(x: int, r: int, q: int)
    requires 0 <= r < 0x100 && x == r + 0x100 * q
    ensures x % 0x100 == r && x / 0x100 == q
  {
  }

  lemma WordRoundTrip(x: u32)
    ensures WordOf(WordBytes(x)) == x
  {
    var b := WordBytes(x);
    assert x / 0x1_0000 == x / 0x100 / 0x100;
    assert x / 0x100_0000 == x / 0x1_0000 / 0x100;
    DivMod256(x / 0x1_0000, b[2], b[3]);
    DivMod256(x / 0x100, b[1], x / 0x1_0000);
    DivMod256(x, b[0], x / 0x100);
  }

  lemma BytesRoundTrip(b: seq<byte>)
    requires |b| == 4
    ensures WordBytes(WordOf(b)) == b
  {
    var x := WordOf(b);
    var b0: int, b1: int, b2: int, b3: int := b[0], b[1], b[2], b[3];
    DivMod256(x, b0, b1 + 0x100 * (b2 + 0x100 * b3));
    DivMod256(x / 0x100, b1, b2 + 0x100 * b3);
    DivMod256(x / 0x100 / 0x100, b2, b3);
    assert x / 0x1_0000 == x / 0x100 / 0x100;
    assert x / 0x100_0000 == x / 0x1_0000 / 0x100;
  }

  /** A word written at `pos` is read back from there. */
  lemma WordAt(data: seq<byte>, pos: nat, x: u32)
    requires pos + 4 <= |data| && data[pos..pos + 4] == WordBytes(x)
    ensures Word(data, pos) == x
  {
    WordRoundTrip(x);
  }

  /** The C string held by a byte buffer: every byte before the first NUL,
      or the whole buffer when it holds none. */
  function CString(b: seq<byte>): (s: string)
    ensures |s| <= |b|
    ensures forall j :: 0 <= j < |s| ==> s[j] as int == b[j] && b[j] != 0
    ensures |s| < |b| ==> b[|s|] == 0
  {
    if |b| == 0 || b[0] == 0 then "" else [b[0] as char] + CString(b[1..])
  }

  /** Every space byte of the raw name field turned into NUL. */
  function Blank(raw: seq<byte>): seq<byte> {
    seq(|raw|, j requires 0 <= j < |raw| => if raw[j] == 0x20 then 0 else raw[j])
  }

  /** The map key a 64-byte name field yields: the bytes before the first space or NUL. */
  function DecodeName(raw: seq<byte>): (name: string)
    requires |raw| == NameSize
    ensures |name| <= NameSize
    ensures forall j :: 0 <= j < |name| ==> name[j] as int == raw[j] && raw[j] != 0x20 && raw[j] != 0
    ensures |name| < NameSize ==> raw[|name|] == 0x20 || raw[|name|] == 0
  {
    CString(Blank(raw))
  }

  /** A name a 64-byte field can carry: at most 64 bytes, none of them space or NUL. */
  predicate ValidName(name: string) {
    && |name| <= NameSize
    && forall j :: 0 <= j < |name| ==> 0 < name[j] as int < 0x100 && name[j] != ' '
  }

  /** Every name the decoder produces is a valid one. */
  lemma DecodedNameValid(raw: seq<byte>)
    requires |raw| == NameSize
    ensures ValidName(DecodeName(raw))
  {
  }

  /** The name field an archive writer stores: the name, space-padded to 64 bytes. */
  function EncodeName(name: string): (raw: seq<byte>)
    requires ValidName(name)
    ensures |raw| == NameSize
  {
    seq(NameSize, j requires 0 <= j < NameSize => if j < |name| then name[j] as int else 0x20)
  }

  lemma {:induction false} CStringStops(b: seq<byte>, name: string)
    requires |name| <= |b|
    requires forall j :: 0 <= j < |name| ==> b[j] == name[j] as int && b[j] != 0
    requires |name| < |b| ==> b[|name|] == 0
    ensures CString(b) == name
    decreases |name|
  {
    if |name| > 0 {
      CStringStops(b[1..], name[1..]);
      assert name == [name[0]] + name[1..];
    }
  }

  lemma NameRoundTrip(name: string)
    requires ValidName(name)
    ensures DecodeName(EncodeName(name)) == name
  {
    CStringStops(Blank(EncodeName(name)), name);
  }

  /** The header, if the volume has one: the version marker follows the comment and
      the six words are present. A volume shorter than the comment and marker fails. */
  function DecodeHeader(data: seq<byte>): (h: Option<Header>)
    ensures h.Some? <==> |data| >= HeaderSize && data[CommentSize..CommentSize + VersionSize] == VersionMarker
  {
    if |data| < CommentSize + VersionSize then None
    else if data[CommentSize..CommentSize + VersionSize] != VersionMarker then None
    else if |data| < HeaderSize then None
    else Some(Header(Word(data, 272), Word(data, 276), Word(data, 280),
                     Word(data, 284), Word(data, 288), Word(data, 292)))
  }

  /** The entry row starting at `pos`, if the volume holds all 80 bytes of it. */
  function DecodeRow(data: seq<byte>, pos: nat): (r: Option<Row>)
    ensures r.Some? <==> pos + RowSize <= |data|
    ensures r.Some? ==> r.value.name == DecodeName(data[pos..pos + NameSize])
  {
    if |data| < pos + RowSize then None
    else Some(Row(DecodeName(data[pos..pos + NameSize]), Word(data, pos + 64), Word(data, pos + 68),
                  Word(data, pos + 72), Word(data, pos + 76)))
  }

  /** The 296 header bytes an archive writer emits. */
  function EncodeHeader(comment: seq<byte>, h: Header): (b: seq<byte>)
    requires |comment| == CommentSize
    ensures |b| == HeaderSize
  {
    comment + VersionMarker + WordBytes(h.entryCount) + WordBytes(h.fileCount) + WordBytes(h.timeStamp)
    + WordBytes(h.size) + WordBytes(h.tableOffset) + WordBytes(h.entrySize)
  }

  /** The 80 bytes of one row. */
  function EncodeRow(r: Row): (b: seq<byte>)
    requires ValidName(r.name)
    ensures |b| == RowSize
  {
    EncodeName(r.name) + WordBytes(r.offset) + WordBytes(r.size) + WordBytes(r.flags) + WordBytes(r.attributes)
  }

  predicate ValidRows(rows: seq<Row>) {
    forall k :: 0 <= k < |rows| ==> ValidName(rows[k].name)
  }

  function EncodeRows(rows: seq<Row>): (b: seq<byte>)
    requires ValidRows(rows)
    ensures |b| == RowSize * |rows|
  {
    if |rows| == 0 then [] else EncodeRow(rows[0]) + EncodeRows(rows[1..])
  }

  /** A whole volume table: header immediately followed by the rows. */
  function EncodeVolume(comment: seq<byte>, h: Header, rows: seq<Row>): seq<byte>
    requires |comment| == CommentSize && ValidRows(rows)
  {
    EncodeHeader(comment, h) + EncodeRows(rows)
  }

  lemma HeaderRoundTrip(comment: seq<byte>, h: Header, tail: seq<byte>)
    requires |comment| == CommentSize
    ensures DecodeHeader(EncodeHeader(comment, h) + tail) == Some(h)
  {
    var d := EncodeHeader(comment, h) + tail;
    assert d[CommentSize..CommentSize + VersionSize] == VersionMarker;
    assert d[272..276] == WordBytes(h.entryCount);
    assert d[276..280] == WordBytes(h.fileCount);
    assert d[280..284] == WordBytes(h.timeStamp);
    assert d[284..288] == WordBytes(h.size);
    assert d[288..292] == WordBytes(h.tableOffset);
    assert d[292..296] == WordBytes(h.entrySize);
    WordAt(d, 272, h.entryCount);
    WordAt(d, 276, h.fileCount);
    WordAt(d, 280, h.timeStamp);
    WordAt(d, 284, h.size);
    WordAt(d, 288, h.tableOffset);
    WordAt(d, 292, h.entrySize);
  }

  lemma RowRoundTrip(r: Row, before: seq<byte>, after: seq<byte>)
    requires ValidName(r.name)
    ensures DecodeRow(before + EncodeRow(r) + after, |before|) == Some(r)
  {
    var d := before + EncodeRow(r) + after;
    var n := |before|;
    assert d[n..n + RowSize] == EncodeRow(r);
    var e := EncodeRow(r);
    assert d[n..n + NameSize] == e[..NameSize] == EncodeName(r.name);
    assert d[n + 64..n + 68] == e[64..68] == WordBytes(r.offset);
    assert d[n + 68..n + 72] == e[68..72] == WordBytes(r.size);
    assert d[n + 72..n + 76] == e[72..76] == WordBytes(r.flags);
    assert d[n + 76..n + 80] == e[76..80] == WordBytes(r.attributes);
    NameRoundTrip(r.name);
    WordAt(d, n + 64, r.offset);
    WordAt(d, n + 68, r.size);
    WordAt(d, n + 72, r.flags);
    WordAt(d, n + 76, r.attributes);
  }

  lemma {:induction false} EncodeRowsSplit(rows: seq<Row>, i: nat)
    requires ValidRows(rows) && i < |rows|
    ensures EncodeRows(rows) == EncodeRows(rows[..i]) + EncodeRow(rows[i]) + EncodeRows(rows[i + 1..])
    decreases i
  {
    if i == 0 {
      assert rows[..0] == [];
    } else {
      EncodeRowsSplit(rows[1..], i - 1);
      assert rows[1..][..i - 1] == rows[1..i];
      assert rows[1..][i - 1] == rows[i];
      assert rows[1..][i..] == rows[i + 1..];
      assert rows[..i][1..] == rows[1..i];
    }
  }

  /** Row `i` of an encoded volume decodes to the `i`-th row written, and the row
      just past the last one is truncated. */
  lemma VolumeRow(comment: seq<byte>, h: Header, rows: seq<Row>, i: nat)
    requires |comment| == CommentSize && ValidRows(rows) && i <= |rows|
    ensures DecodeRow(EncodeVolume(comment, h, rows), HeaderSize + RowSize * i)
         == if i < |rows| then Some(rows[i]) else None
  {
    if i < |rows| {
      EncodeRowsSplit(rows, i);
      var head := EncodeHeader(comment, h);
      var before := head + EncodeRows(rows[..i]);
      var after := EncodeRows(rows[i + 1..]);
      Regroup(head, EncodeRows(rows[..i]), EncodeRow(rows[i]), after);
      RowRoundTrip(rows[i], before, after);
    }
  }

  lemma Regroup<T>(a: seq<T>, b: seq<T>, c: seq<T>, d: seq<T>)
    ensures a + (b + c + d) == (a + b) + c + d
  {
  }

  lemma VolumeHeader(comment: seq<byte>, h: Header, rows: seq<Row>)
    requires |comment| == CommentSize && ValidRows(rows)
    ensures DecodeHeader(EncodeVolume(comment, h, rows)) == Some(h)
  {
    HeaderRoundTrip(comment, h, EncodeRows(rows));
  }
}

=== FILE: loader.dfy ===
/** `VDFS::addVDFVolume`: the header check and the queue-driven pass over the entry
    table that merges one volume into the directory tree.

    The queue of directories awaiting their children holds paths from the root rather
    than node pointers. Nodes are never moved or removed, so a path names the same node
    for the whole pass. */
module Loader {
  import opened Prelude
  import opened Format
  import opened Tree

  /** Outcome of a mount: whether it reports success, and the tree afterwards. */
  datatype LoadResult = LoadResult(ok: bool, root: Dir)

  /** The leaf a file row creates: the volume's path, the row's offset and size, the
      header's time stamp, each stored unchanged. */
  function NewEntry(origin: string, row: Row, ts: u32): (e: FileEntry)
    ensures e.origin == origin && e.offset == row.offset && e.size == row.size && e.timestamp == ts
  {
    FileEntry(origin, row.offset, row.size, ts)
  }

  /** A file row's entry goes in when the name is absent or the stored entry is strictly older. */
  predicate Replaces(files: map<string, FileEntry>, name: string, ts: u32) {
    name !in files || files[name].timestamp < ts
  }

  /** One row applied to the directory at the queue front. A directory row adds an empty
      subdirectory unless one of that name exists, which is then kept as it is; a file row
      inserts its entry or overrides a strictly older one. */
  function ApplyRow(top: Dir, row: Row, origin: string, ts: u32): (r: Dir)
    ensures IsDirectory(row.flags) ==>
      && r.files == top.files
      && r.subdirs.Keys == top.subdirs.Keys + {row.name}
      && (forall n :: n in top.subdirs ==> r.subdirs[n] == top.subdirs[n])
      && (row.name !in top.subdirs ==> r.subdirs[row.name] == EmptyDir)
    ensures !IsDirectory(row.flags) ==>
      && r.subdirs == top.subdirs
      && r.files.Keys == top.files.Keys + {row.name}
      && (forall n :: n in top.files && n != row.name ==> r.files[n] == top.files[n])
      && (Replaces(top.files, row.name, ts) ==> r.files[row.name] == NewEntry(origin, row, ts))
      && (!Replaces(top.files, row.name, ts) ==> r == top)
  {
    if IsDirectory(row.flags) then
      if DirectoryEntryExist(top, row.name) then top
      else top.(subdirs := top.subdirs[row.name := EmptyDir])
    else if Replaces(top.files, row.name, ts) then
      top.(files := top.files[row.name := NewEntry(origin, row, ts)])
    else top
  }

  /** A row applied to the directory that `p` names; a path that leads nowhere changes nothing. */
  function ApplyAt(t: Dir, p: Path, row: Row, origin: string, ts: u32): Dir
    decreases |p|
  {
    if |p| == 0 then ApplyRow(t, row, origin, ts)
    else if p[0] in t.subdirs then
      t.(subdirs := t.subdirs[p[0] := ApplyAt(t.subdirs[p[0]], p[1..], row, origin, ts)])
    else t
  }

  /** The queue after a row: a directory row pushes its subdirectory (new or reused) at the
      back, then a last-sibling row pops the front. */
  function NextQueue(q: seq<Path>, row: Row): (q': seq<Path>)
    requires |q| > 0
    ensures |q'| == |q| + (if IsDirectory(row.flags) then 1 else 0) - (if IsLast(row.flags) then 1 else 0)
    ensures IsDirectory(row.flags) ==> q'[|q'| - 1] == q[0] + [row.name]
    ensures IsLast(row.flags) ==> forall k :: 1 <= k < |q| ==> q'[k - 1] == q[k]
    ensures !IsLast(row.flags) ==> forall k :: 0 <= k < |q| ==> q'[k] == q[k]
  {
    var pushed := if IsDirectory(row.flags) then q + [q[0] + [row.name]] else q;
    if IsLast(row.flags) then pushed[1..] else pushed
  }

  /** Where row `i` of the table starts: the rows follow the header directly. */
  function RowPos(i: nat): nat {
    HeaderSize + RowSize * i
  }

  /** Rows `i` up to `count` merged into `t` with queue `q`. An empty queue when a row is
      due, or a row cut short by the end of the volume, ends the pass as a failure with
      the rows before it merged. */
  function Merge(t: Dir, q: seq<Path>, data: seq<byte>, i: nat, count: nat, origin: string, ts: u32): (r: LoadResult)
    ensures r.ok ==> i >= count || RowPos(count) <= |data|
    decreases count - i
  {
    if i >= count then LoadResult(true, t)
    else if |q| == 0 then LoadResult(false, t)
    else match DecodeRow(data, RowPos(i))
      case None => LoadResult(false, t)
      case Some(row) =>
        Merge(ApplyAt(t, q[0], row, origin, ts), NextQueue(q, row), data, i + 1, count, origin, ts)
  }

  /** `VDFS::addVDFVolume`: a volume that cannot be opened, or whose header is short or
      carries the wrong version marker, leaves the tree untouched; otherwise the table is
      merged from a queue holding only the root, every file taking the header's time stamp. */
  function Mount(root: Dir, store: FileStore, path: string): (r: LoadResult)
    ensures r.ok ==> (&& path in store && |store[path]| >= HeaderSize
                      && store[path][CommentSize..CommentSize + VersionSize] == VersionMarker
                      && |store[path]| >= RowPos(DecodeHeader(store[path]).value.entryCount))
    ensures path !in store || DecodeHeader(store[path]).None? ==> r == LoadResult(false, root)
  {
    if path !in store then LoadResult(false, root)
    else match DecodeHeader(store[path])
      case None => LoadResult(false, root)
      case Some(h) => Merge(root, [[]], store[path], 0, h.entryCount, path, h.timeStamp)
  }

  // ---------------------------------------------------------------------------
  // The pass split in two: the queue discipline alone fixes which directory each row
  // lands in, whatever the tree holds; the tree is then the rows applied in order.

  /** A row together with the directory it is attached to. */
  datatype Target = Target(dir: Path, row: Row)

  /** The targets of a pass and whether it ran to the end of the table. */
  datatype Plan = Plan(complete: bool, targets: seq<Target>)

  function Schedule(q: seq<Path>, data: seq<byte>, i: nat, count: nat): (p: Plan)
    ensures p.complete ==> |p.targets| == if i >= count then 0 else count - i
    ensures !p.complete ==> |p.targets| < count - i
    decreases count - i
  {
    if i >= count || |q| == 0 then Plan(i >= count, [])
    else match DecodeRow(data, RowPos(i))
      case None => Plan(false, [])
      case Some(row) =>
        var rest := Schedule(NextQueue(q, row), data, i + 1, count);
        Plan(rest.complete, [Target(q[0], row)] + rest.targets)
  }

  /** One step of the schedule: the due row, attached to the queue front, then the rest. */
  lemma ScheduleStep(q: seq<Path>, data: seq<byte>, i: nat, count: nat, row: Row)
    requires i < count && |q| > 0 && DecodeRow(data, RowPos(i)) == Some(row)
    ensures var rest := Schedule(NextQueue(q, row), data, i + 1, count);
            && Schedule(q, data, i, count) == Plan(rest.complete, [Target(q[0], row)] + rest.targets)
            && ([Target(q[0], row)] + rest.targets)[0] == Target(q[0], row)
            && ([Target(q[0], row)] + rest.targets)[1..] == rest.targets
  {
  }

  function ApplyAll(t: Dir, targets: seq<Target>, origin: string, ts: u32): Dir
    decreases |targets|
  {
    if |targets| == 0 then t
    else ApplyAll(ApplyAt(t, targets[0].dir, targets[0].row, origin, ts), targets[1..], origin, ts)
  }

  /** The one-pass merge is the scheduled targets applied in order. */
  lemma {:induction false} MergeIsPlanned(t: Dir, q: seq<Path>, data: seq<byte>, i: nat, count: nat,
                                          origin: string, ts: u32)
    ensures var p := Schedule(q, data, i, count);
            Merge(t, q, data, i, count, origin, ts) == LoadResult(p.complete, ApplyAll(t, p.targets, origin, ts))
    decreases count - i
  {
    if i < count && |q| > 0 && DecodeRow(data, RowPos(i)).Some? {
      var row := DecodeRow(data, RowPos(i)).value;
      var t1 := ApplyAt(t, q[0], row, origin, ts);
      MergeIsPlanned(t1, NextQueue(q, row), data, i + 1, count, origin, ts);
      ScheduleStep(q, data, i, count, row);
    }
  }

  // ---------------------------------------------------------------------------
  // Growth: merging never removes a directory or a file, and a file is only ever
  // replaced by a strictly newer one.

  ghost predicate FilesGrow(a: map<string, FileEntry>, b: map<string, FileEntry>) {
    forall n :: n in a ==> n in b && (b[n] == a[n] || a[n].timestamp < b[n].timestamp)
  }

  ghost predicate Grows(a: Dir, b: Dir) {
    a.subdirs.Keys <= b.subdirs.Keys && FilesGrow(a.files, b.files)
  }

  /** Every directory of `t` is still in `t'`, holding at least its files, none older. */
  ghost predicate Extends(t: Dir, t': Dir) {
    forall p :: HasDir(t, p) ==> HasDir(t', p) && Grows(DirAt(t, p), DirAt(t', p))
  }

  lemma ExtendsTransitive(a: Dir, b: Dir, c: Dir)
    requires Extends(a, b) && Extends(b, c)
    ensures Extends(a, c)
  {
  }

  lemma {:induction false} ApplyAtFocus(t: Dir, p: Path, row: Row, origin: string, ts: u32)
    requires HasDir(t, p)
    ensures HasDir(ApplyAt(t, p, row, origin, ts), p)
    ensures DirAt(ApplyAt(t, p, row, origin, ts), p) == ApplyRow(DirAt(t, p), row, origin, ts)
    decreases |p|
  {
    if |p| > 0 {
      ApplyAtFocus(t.subdirs[p[0]], p[1..], row, origin, ts);
    }
  }

  lemma {:induction false} ApplyAtKeeps(t: Dir, p: Path, row: Row, origin: string, ts: u32, q: Path)
    requires HasDir(t, q)
    ensures HasDir(ApplyAt(t, p, row, origin, ts), q)
    ensures Grows(DirAt(t, q), DirAt(ApplyAt(t, p, row, origin, ts), q))
    decreases |q|
  {
    var t' := ApplyAt(t, p, row, origin, ts);
    if |q| > 0 {
      var k := q[0];
      if |p| > 0 && p[0] == k {
        ApplyAtKeeps(t.subdirs[k], p[1..], row, origin, ts, q[1..]);
      } else {
        assert t'.subdirs[k] == t.subdirs[k];
      }
    }
  }

  lemma ApplyAtExtends(t: Dir, p: Path, row: Row, origin: string, ts: u32)
    ensures Extends(t, ApplyAt(t, p, row, origin, ts))
  {
    forall q | HasDir(t, q)
      ensures HasDir(ApplyAt(t, p, row, origin, ts), q)
      ensures Grows(DirAt(t, q), DirAt(ApplyAt(t, p, row, origin, ts), q))
    {
      ApplyAtKeeps(t, p, row, origin, ts, q);
    }
  }

  lemma {:induction false} ApplyAllExtends(t: Dir, targets: seq<Target>, origin: string, ts: u32)
    ensures Extends(t, ApplyAll(t, targets, origin, ts))
    decreases |targets|
  {
    if |targets| > 0 {
      var t1 := ApplyAt(t, targets[0].dir, targets[0].row, origin, ts);
      ApplyAtExtends(t, targets[0].dir, targets[0].row, origin, ts);
      ApplyAllExtends(t1, targets[1..], origin, ts);
      ExtendsTransitive(t, t1, ApplyAll(t1, targets[1..], origin, ts));
    }
  }

  lemma {:induction false} MergeExtends(t: Dir, q: seq<Path>, data: seq<byte>, i: nat, count: nat,
                                        origin: string, ts: u32)
    ensures Extends(t, Merge(t, q, data, i, count, origin, ts).root)
  {
    MergeIsPlanned(t, q, data, i, count, origin, ts);
    ApplyAllExtends(t, Schedule(q, data, i, count).targets, origin, ts);
  }

  /** Mounting only adds: directories of earlier mounts survive with their subtrees
      reused, and a file is replaced only by a strictly newer one. */
  lemma MountExtends(root: Dir, store: FileStore, path: string)
    ensures Extends(root, Mount(root, store, path).root)
  {
    if path in store && DecodeHeader(store[path]).Some? {
      var h := DecodeHeader(store[path]).value;
      MergeExtends(root, [[]], store[path], 0, h.entryCount, path, h.timeStamp);
    }
  }

  // ---------------------------------------------------------------------------
  // Frame: merging adds only what its rows name. Every directory after a merge was
  // there before or is the subdirectory a directory row names, and every file is the
  // entry stored there before or the entry a file row for that place and name creates.

  /** One row changes only the directory it is applied to, and creates at most the one
      empty subdirectory a directory row names. */
  lemma {:induction false} ApplyAtFrame(t: Dir, p: Path, row: Row, origin: string, ts: u32, q: Path)
    requires HasDir(ApplyAt(t, p, row, origin, ts), q)
    ensures HasDir(t, q) && q != p ==>
              && DirAt(ApplyAt(t, p, row, origin, ts), q).files == DirAt(t, q).files
              && DirAt(ApplyAt(t, p, row, origin, ts), q).subdirs.Keys == DirAt(t, q).subdirs.Keys
    ensures !HasDir(t, q) ==>
              && HasDir(t, p) && IsDirectory(row.flags) && q == p + [row.name]
              && DirAt(ApplyAt(t, p, row, origin, ts), q) == EmptyDir
    decreases |q|
  {
    var t' := ApplyAt(t, p, row, origin, ts);
    if |q| == 0 {
      if |p| > 0 && p[0] in t.subdirs {
        assert t'.subdirs.Keys == t.subdirs.Keys;
      }
    } else {
      var k := q[0];
      if |p| > 0 && p[0] == k && k in t.subdirs {
        ApplyAtFrame(t.subdirs[k], p[1..], row, origin, ts, q[1..]);
        assert q == [k] + q[1..] && p == [k] + p[1..];
        if !HasDir(t, q) {
          assert p + [row.name] == [k] + (p[1..] + [row.name]);
        }
      } else if k in t.subdirs {
        assert t'.subdirs[k] == t.subdirs[k];
      } else {
        assert t'.subdirs[k] == EmptyDir;
        assert q == p + [row.name];
      }
    }
  }

  /** Directory `p` of a merged tree was in `t` or is the subdirectory a directory target names. */
  ghost predicate DirFrom(t: Dir, targets: seq<Target>, p: Path) {
    || HasDir(t, p)
    || exists k :: 0 <= k < |targets| && IsDirectory(targets[k].row.flags) && p == targets[k].dir + [targets[k].row.name]
  }

  /** Entry `e` under `n` in directory `p` of a merged tree is `t`'s entry there, or the
      entry a file target for that directory and name creates. */
  ghost predicate FileFrom(t: Dir, targets: seq<Target>, origin: string, ts: u32, p: Path, n: string, e: FileEntry) {
    || (HasDir(t, p) && n in DirAt(t, p).files && DirAt(t, p).files[n] == e)
    || exists k :: && 0 <= k < |targets| && targets[k].dir == p && !IsDirectory(targets[k].row.flags)
                   && targets[k].row.name == n && e == NewEntry(origin, targets[k].row, ts)
  }

  /** Everything in `t'` comes from `t` or from `targets`. */
  ghost predicate BuiltFrom(t: Dir, t': Dir, targets: seq<Target>, origin: string, ts: u32) {
    forall p :: HasDir(t', p) ==>
      && DirFrom(t, targets, p)
      && forall n :: n in DirAt(t', p).files ==> FileFrom(t, targets, origin, ts, p, n, DirAt(t', p).files[n])
  }

  lemma ApplyAtBuiltFrom(t: Dir, a: Target, origin: string, ts: u32)
    ensures BuiltFrom(t, ApplyAt(t, a.dir, a.row, origin, ts), [a], origin, ts)
  {
    var t' := ApplyAt(t, a.dir, a.row, origin, ts);
    forall q | HasDir(t', q)
      ensures DirFrom(t, [a], q)
      ensures forall n :: n in DirAt(t', q).files ==> FileFrom(t, [a], origin, ts, q, n, DirAt(t', q).files[n])
    {
      ApplyAtFrame(t, a.dir, a.row, origin, ts, q);
      if !HasDir(t, q) {
        assert [a][0] == a;
      } else if q == a.dir {
        ApplyAtFocus(t, a.dir, a.row, origin, ts);
        forall n | n in DirAt(t', q).files
          ensures FileFrom(t, [a], origin, ts, q, n, DirAt(t', q).files[n])
        {
          assert [a][0] == a;
        }
      }
    }
  }

  lemma BuiltFromCompose(t: Dir, t1: Dir, t2: Dir, A: seq<Target>, B: seq<Target>, origin: string, ts: u32)
    requires BuiltFrom(t, t1, A, origin, ts) && BuiltFrom(t1, t2, B, origin, ts)
    ensures BuiltFrom(t, t2, A + B, origin, ts)
  {
    forall q | HasDir(t2, q)
      ensures DirFrom(t, A + B, q)
      ensures forall n :: n in DirAt(t2, q).files ==> FileFrom(t, A + B, origin, ts, q, n, DirAt(t2, q).files[n])
    {
      if HasDir(t1, q) {
        if !HasDir(t, q) {
          var k :| 0 <= k < |A| && IsDirectory(A[k].row.flags) && q == A[k].dir + [A[k].row.name];
          assert (A + B)[k] == A[k];
        }
      } else {
        var k :| 0 <= k < |B| && IsDirectory(B[k].row.flags) && q == B[k].dir + [B[k].row.name];
        assert (A + B)[|A| + k] == B[k];
      }
      forall n | n in DirAt(t2, q).files
        ensures FileFrom(t, A + B, origin, ts, q, n, DirAt(t2, q).files[n])
      {
        var e := DirAt(t2, q).files[n];
        if HasDir(t1, q) && n in DirAt(t1, q).files && DirAt(t1, q).files[n] == e {
          if !(HasDir(t, q) && n in DirAt(t, q).files && DirAt(t, q).files[n] == e) {
            var k :| && 0 <= k < |A| && A[k].dir == q && !IsDirectory(A[k].row.flags)
                     && A[k].row.name == n && e == NewEntry(origin, A[k].row, ts);
            assert (A + B)[k] == A[k];
          }
        } else {
          var k :| && 0 <= k < |B| && B[k].dir == q && !IsDirectory(B[k].row.flags)
                   && B[k].row.name == n && e == NewEntry(origin, B[k].row, ts);
          assert (A + B)[|A| + k] == B[k];
        }
      }
    }
  }

  lemma {:induction false} ApplyAllBuiltFrom(t: Dir, targets: seq<Target>, origin: string, ts: u32)
    ensures BuiltFrom(t, ApplyAll(t, targets, origin, ts), targets, origin, ts)
    decreases |targets|
  {
    if |targets| > 0 {
      var t1 := ApplyAt(t, targets[0].dir, targets[0].row, origin, ts);
      ApplyAtBuiltFrom(t, targets[0], origin, ts);
      ApplyAllBuiltFrom(t1, targets[1..], origin, ts);
      BuiltFromCompose(t, t1, ApplyAll(t1, targets[1..], origin, ts), [targets[0]], targets[1..], origin, ts);
      assert [targets[0]] + targets[1..] == targets;
    }
  }

  /** A mount adds only what the rows its pass reached name: every directory of the new
      tree was there before or is a directory row's subdirectory, and every file is the
      entry stored there before or one a file row of the volume creates at that place. */
  lemma MountBuiltFrom(root: Dir, store: FileStore, path: string)
    requires path in store && DecodeHeader(store[path]).Some?
    ensures var h := DecodeHeader(store[path]).value;
            BuiltFrom(root, Mount(root, store, path).root,
                      Schedule([[]], store[path], 0, h.entryCount).targets, path, h.timeStamp)
  {
    var h := DecodeHeader(store[path]).value;
    MergeIsPlanned(root, [[]], store[path], 0, h.entryCount, path, h.timeStamp);
    ApplyAllBuiltFrom(root, Schedule([[]], store[path], 0, h.entryCount).targets, path, h.timeStamp);
  }

  // ---------------------------------------------------------------------------
  // Every queued path leads to an existing directory, so the row always lands.

  ghost predicate QueueInTree(t: Dir, q: seq<Path>) {
    forall k :: 0 <= k < |q| ==> HasDir(t, q[k])
  }

  /** Each target's directory exists in the tree at the moment its row is applied. */
  ghost predicate TargetsInTree(t: Dir, targets: seq<Target>, origin: string, ts: u32)
    decreases |targets|
  {
    |targets| == 0 ||
    (HasDir(t, targets[0].dir)
     && TargetsInTree(ApplyAt(t, targets[0].dir, targets[0].row, origin, ts), targets[1..], origin, ts))
  }

  lemma QueueStep(t: Dir, q: seq<Path>, row: Row, origin: string, ts: u32)
    requires |q| > 0 && QueueInTree(t, q)
    ensures QueueInTree(ApplyAt(t, q[0], row, origin, ts), NextQueue(q, row))
  {
    var t' := ApplyAt(t, q[0], row, origin, ts);
    ApplyAtExtends(t, q[0], row, origin, ts);
    if IsDirectory(row.flags) {
      ApplyAtFocus(t, q[0], row, origin, ts);
      HasDirSnoc(t', q[0], row.name);
    }
  }

  lemma {:induction false} ScheduleInTree(t: Dir, q: seq<Path>, data: seq<byte>, i: nat, count: nat,
                                          origin: string, ts: u32)
    requires QueueInTree(t, q)
    ensures TargetsInTree(t, Schedule(q, data, i, count).targets, origin, ts)
    decreases count - i
  {
    if i < count && |q| > 0 && DecodeRow(data, RowPos(i)).Some? {
      var row := DecodeRow(data, RowPos(i)).value;
      var t1 := ApplyAt(t, q[0], row, origin, ts);
      QueueStep(t, q, row, origin, ts);
      ScheduleInTree(t1, NextQueue(q, row), data, i + 1, count, origin, ts);
      ScheduleStep(q, data, i, count, row);
    }
  }

  // ---------------------------------------------------------------------------
  // Idempotence: once a row has been merged, merging it again changes nothing.

  /** The tree already reflects the target: its subdirectory exists, or its file is
      present and at least as new as time stamp `ts`. */
  ghost predicate Satisfied(t: Dir, a: Target, ts: u32) {
    && HasDir(t, a.dir)
    && var d := DirAt(t, a.dir);
       if IsDirectory(a.row.flags) then a.row.name in d.subdirs
       else a.row.name in d.files && ts <= d.files[a.row.name].timestamp
  }

  lemma SatisfiedAfterApply(t: Dir, a: Target, origin: string, ts: u32)
    requires HasDir(t, a.dir)
    ensures Satisfied(ApplyAt(t, a.dir, a.row, origin, ts), a, ts)
  {
    ApplyAtFocus(t, a.dir, a.row, origin, ts);
  }

  lemma SatisfiedPersists(t: Dir, t': Dir, a: Target, ts: u32)
    requires Satisfied(t, a, ts) && Extends(t, t')
    ensures Satisfied(t', a, ts)
  {
    if IsDirectory(a.row.flags) {
      HasDirSnoc(t, a.dir, a.row.name);
      HasDirSnoc(t', a.dir, a.row.name);
    }
  }

  lemma {:induction false} ApplyAtUnchanged(t: Dir, p: Path, row: Row, origin: string, ts: u32)
    requires HasDir(t, p) && ApplyRow(DirAt(t, p), row, origin, ts) == DirAt(t, p)
    ensures ApplyAt(t, p, row, origin, ts) == t
    decreases |p|
  {
    if |p| > 0 {
      ApplyAtUnchanged(t.subdirs[p[0]], p[1..], row, origin, ts);
      assert t.subdirs[p[0] := t.subdirs[p[0]]] == t.subdirs;
    }
  }

  lemma SatisfiedIsNoop(t: Dir, a: Target, origin: string, ts: u32)
    requires Satisfied(t, a, ts)
    ensures ApplyAt(t, a.dir, a.row, origin, ts) == t
  {
    ApplyAtUnchanged(t, a.dir, a.row, origin, ts);
  }

  lemma {:induction false} ApplyAllSatisfies(t: Dir, targets: seq<Target>, origin: string, ts: u32)
    requires TargetsInTree(t, targets, origin, ts)
    ensures forall k :: 0 <= k < |targets| ==> Satisfied(ApplyAll(t, targets, origin, ts), targets[k], ts)
    decreases |targets|
  {
    if |targets| > 0 {
      var t1 := ApplyAt(t, targets[0].dir, targets[0].row, origin, ts);
      var last := ApplyAll(t1, targets[1..], origin, ts);
      ApplyAllSatisfies(t1, targets[1..], origin, ts);
      SatisfiedAfterApply(t, targets[0], origin, ts);
      ApplyAllExtends(t1, targets[1..], origin, ts);
      SatisfiedPersists(t1, last, targets[0], ts);
      forall k | 1 <= k < |targets|
        ensures Satisfied(last, targets[k], ts)
      {
        assert targets[k] == targets[1..][k - 1];
      }
    }
  }

  lemma {:induction false} ApplyAllNoop(t: Dir, targets: seq<Target>, origin: string, ts: u32)
    requires forall k :: 0 <= k < |targets| ==> Satisfied(t, targets[k], ts)
    ensures ApplyAll(t, targets, origin, ts) == t
    decreases |targets|
  {
    if |targets| > 0 {
      SatisfiedIsNoop(t, targets[0], origin, ts);
      forall k | 0 <= k < |targets| - 1
        ensures Satisfied(t, targets[1..][k], ts)
      {
        assert targets[1..][k] == targets[k + 1];
      }
      ApplyAllNoop(t, targets[1..], origin, ts);
    }
  }

  /** Mounting the same volume twice gives exactly the tree, and the verdict, of mounting it
      once: repeated directories are reused and repeated files carry an equal, not a
      strictly newer, time stamp. */
  lemma MountIdempotent(root: Dir, store: FileStore, path: string)
    ensures Mount(Mount(root, store, path).root, store, path) == Mount(root, store, path)
  {
    if path in store && DecodeHeader(store[path]).Some? {
      var data := store[path];
      var h := DecodeHeader(data).value;
      var plan := Schedule([[]], data, 0, h.entryCount);
      MergeIsPlanned(root, [[]], data, 0, h.entryCount, path, h.timeStamp);
      var once := ApplyAll(root, plan.targets, path, h.timeStamp);
      MergeIsPlanned(once, [[]], data, 0, h.entryCount, path, h.timeStamp);
      ScheduleInTree(root, [[]], data, 0, h.entryCount, path, h.timeStamp);
      ApplyAllSatisfies(root, plan.targets, path, h.timeStamp);
      ApplyAllNoop(once, plan.targets, path, h.timeStamp);
    }
  }

  /** After a mount, every row of the volume's table is reflected in the tree: its
      subdirectory exists, or its file is present with a time stamp at least the volume's. */
  lemma MountReflects(root: Dir, store: FileStore, path: string)
    requires path in store && DecodeHeader(store[path]).Some?
    ensures var h := DecodeHeader(store[path]).value;
            var plan := Schedule([[]], store[path], 0, h.entryCount);
            forall k :: 0 <= k < |plan.targets| ==> Satisfied(Mount(root, store, path).root, plan.targets[k], h.timeStamp)
  {
    var h := DecodeHeader(store[path]).value;
    MergeIsPlanned(root, [[]], store[path], 0, h.entryCount, path, h.timeStamp);
    ScheduleInTree(root, [[]], store[path], 0, h.entryCount, path, h.timeStamp);
    ApplyAllSatisfies(root, Schedule([[]], store[path], 0, h.entryCount).targets, path, h.timeStamp);
  }

  // ---------------------------------------------------------------------------
  // An entry at least as new as a volume survives that volume's mount unchanged.

  /** Directory `p` of `t` holds `e` under `name`, and `e` is at least as new as `ts`. */
  ghost predicate HoldsAtLeast(t: Dir, p: Path, name: string, e: FileEntry, ts: u32) {
    HasDir(t, p) && name in DirAt(t, p).files && DirAt(t, p).files[name] == e && ts <= e.timestamp
  }

  lemma {:induction false} ApplyAtKeepsNewer(t: Dir, q: Path, row: Row, origin: string, ts: u32,
                                             p: Path, name: string, e: FileEntry)
    requires HoldsAtLeast(t, p, name, e, ts)
    ensures HoldsAtLeast(ApplyAt(t, q, row, origin, ts), p, name, e, ts)
    decreases |p|
  {
    var t' := ApplyAt(t, q, row, origin, ts);
    if |p| > 0 {
      var k := p[0];
      if |q| > 0 && q[0] == k {
        ApplyAtKeepsNewer(t.subdirs[k], q[1..], row, origin, ts, p[1..], name, e);
      } else {
        assert t'.subdirs[k] == t.subdirs[k];
      }
    }
  }

  lemma {:induction false} ApplyAllKeepsNewer(t: Dir, targets: seq<Target>, origin: string, ts: u32,
                                              p: Path, name: string, e: FileEntry)
    requires HoldsAtLeast(t, p, name, e, ts)
    ensures HoldsAtLeast(ApplyAll(t, targets, origin, ts), p, name, e, ts)
    decreases |targets|
  {
    if |targets| > 0 {
      ApplyAtKeepsNewer(t, targets[0].dir, targets[0].row, origin, ts, p, name, e);
      ApplyAllKeepsNewer(ApplyAt(t, targets[0].dir, targets[0].row, origin, ts), targets[1..], origin, ts, p, name, e);
    }
  }

  /** A mount leaves unchanged every stored entry whose time stamp is at least the volume's. */
  lemma MountKeepsNewer(root: Dir, store: FileStore, path: string, p: Path, name: string, e: FileEntry)
    requires path in store && DecodeHeader(store[path]).Some?
    requires HoldsAtLeast(root, p, name, e, DecodeHeader(store[path]).value.timeStamp)
    ensures HoldsAtLeast(Mount(root, store, path).root, p, name, e, DecodeHeader(store[path]).value.timeStamp)
  {
    var h := DecodeHeader(store[path]).value;
    MergeIsPlanned(root, [[]], store[path], 0, h.entryCount, path, h.timeStamp);
    ApplyAllKeepsNewer(root, Schedule([[]], store[path], 0, h.entryCount).targets, path, h.timeStamp, p, name, e);
  }

  /** A row reflected at time stamp `ts` stays reflected through the mount of a volume no
      newer than `ts`, and a file it names keeps exactly its entry. */
  lemma NewerSurvivesOlder(t: Dir, store: FileStore, path: string, a: Target, ts: u32)
    requires path in store && DecodeHeader(store[path]).Some? && DecodeHeader(store[path]).value.timeStamp <= ts
    requires Satisfied(t, a, ts)
    ensures Satisfied(Mount(t, store, path).root, a, ts)
    ensures !IsDirectory(a.row.flags) ==>
              DirAt(Mount(t, store, path).root, a.dir).files[a.row.name] == DirAt(t, a.dir).files[a.row.name]
  {
    MountExtends(t, store, path);
    SatisfiedPersists(t, Mount(t, store, path).root, a, ts);
    if !IsDirectory(a.row.flags) {
      MountKeepsNewer(t, store, path, a.dir, a.row.name, DirAt(t, a.dir).files[a.row.name]);
    }
  }

  /** One row of the newer volume `b`, mounted in either order with the older volume `a`. */
  lemma NewerRowWins(root: Dir, store: FileStore, a: string, b: string, targets: seq<Target>, k: nat)
    requires a in store && DecodeHeader(store[a]).Some?
    requires b in store && DecodeHeader(store[b]).Some?
    requires DecodeHeader(store[a]).value.timeStamp <= DecodeHeader(store[b]).value.timeStamp
    requires targets == Schedule([[]], store[b], 0, DecodeHeader(store[b]).value.entryCount).targets
    requires k < |targets|
    ensures var ts := DecodeHeader(store[b]).value.timeStamp;
            var bFirst := Mount(root, store, b).root;
            var ba := Mount(bFirst, store, a).root;
            && Satisfied(Mount(Mount(root, store, a).root, store, b).root, targets[k], ts)
            && Satisfied(bFirst, targets[k], ts)
            && Satisfied(ba, targets[k], ts)
            && (!IsDirectory(targets[k].row.flags) ==>
                  DirAt(ba, targets[k].dir).files[targets[k].row.name]
                  == DirAt(bFirst, targets[k].dir).files[targets[k].row.name])
  {
    var ts := DecodeHeader(store[b]).value.timeStamp;
    MountReflects(Mount(root, store, a).root, store, b);
    MountReflects(root, store, b);
    assert Satisfied(Mount(root, store, b).root, targets[k], ts);
    NewerSurvivesOlder(Mount(root, store, b).root, store, a, targets[k], ts);
  }

  /** Two volumes mounted in either order: every directory and file the table of the newer
      volume `b` names is present afterwards, each file with a time stamp at least `b`'s;
      when `b` is mounted first, the entry it left for each of its files is kept exactly. */
  lemma NewerVolumeWins(root: Dir, store: FileStore, a: string, b: string)
    requires a in store && DecodeHeader(store[a]).Some?
    requires b in store && DecodeHeader(store[b]).Some?
    requires DecodeHeader(store[a]).value.timeStamp <= DecodeHeader(store[b]).value.timeStamp
    ensures var ts := DecodeHeader(store[b]).value.timeStamp;
            var targets := Schedule([[]], store[b], 0, DecodeHeader(store[b]).value.entryCount).targets;
            var bFirst := Mount(root, store, b).root;
            var ba := Mount(bFirst, store, a).root;
            forall k :: 0 <= k < |targets| ==>
              && Satisfied(Mount(Mount(root, store, a).root, store, b).root, targets[k], ts)
              && Satisfied(bFirst, targets[k], ts)
              && Satisfied(ba, targets[k], ts)
              && (!IsDirectory(targets[k].row.flags) ==>
                    DirAt(ba, targets[k].dir).files[targets[k].row.name]
                    == DirAt(bFirst, targets[k].dir).files[targets[k].row.name])
  {
    var targets := Schedule([[]], store[b], 0, DecodeHeader(store[b]).value.entryCount).targets;
    forall k | 0 <= k < |targets| {
      NewerRowWins(root, store, a, b, targets, k);
    }
  }

  // ---------------------------------------------------------------------------
  // Row-level override rules.

  /** Two file rows for one name from volumes with different time stamps give the same
      directory in either order: the newer entry wins whichever volume came first. */
  lemma OverrideOrderIndependent(d: Dir, r1: Row, o1: string, ts1: u32, r2: Row, o2: string, ts2: u32)
    requires !IsDirectory(r1.flags) && !IsDirectory(r2.flags) && r1.name == r2.name && ts1 != ts2
    ensures ApplyRow(ApplyRow(d, r1, o1, ts1), r2, o2, ts2) == ApplyRow(ApplyRow(d, r2, o2, ts2), r1, o1, ts1)
    ensures r1.name !in d.files ==>
      ApplyRow(ApplyRow(d, r1, o1, ts1), r2, o2, ts2).files[r1.name]
        == if ts1 < ts2 then NewEntry(o2, r2, ts2) else NewEntry(o1, r1, ts1)
  {
  }

  /** A row merged twice under one time stamp has the effect of merging it once. */
  lemma RowIdempotent(d: Dir, row: Row, origin: string, ts: u32)
    ensures ApplyRow(ApplyRow(d, row, origin, ts), row, origin, ts) == ApplyRow(d, row, origin, ts)
  {
  }

  // ---------------------------------------------------------------------------
  // The file-row branch as the source writes it: the existence test goes through the
  // path walk of `DirectoryEntry::fileExist`, not through the file map.

  /** `None` stands for the null dereference the source performs when the walk finds a
      file but the file map holds no entry under the row's name. */
  function ApplyRowAsWritten(top: Dir, row: Row, origin: string, ts: u32): Option<Dir> {
    if IsDirectory(row.flags) then Some(ApplyRow(top, row, origin, ts))
    else if !FileExist(top, row.name) then Some(top.(files := top.files[row.name := NewEntry(origin, row, ts)]))
    else if row.name !in top.files then None
    else if top.files[row.name].timestamp < ts then Some(top.(files := top.files[row.name := NewEntry(origin, row, ts)]))
    else Some(top)
  }

  /** For names without `/` the walk is a map lookup, and the two versions agree. */
  lemma AsWrittenAgreesWithoutSlash(top: Dir, row: Row, origin: string, ts: u32)
    requires SlashFree(row.name)
    ensures ApplyRowAsWritten(top, row, origin, ts) == Some(ApplyRow(top, row, origin, ts))
  {
  }

  /** A file row named "A/B" overrides a newer entry stored under "A/B", because the walk
      looks for a subdirectory "A" and reports the name absent. */
  lemma SlashNameLetsOlderWin()
    ensures var newer := FileEntry("PATCH.VDF", 0, 1, 5);
            var top := Dir(map["A/B" := newer], map[]);
            var row := Row("A/B", 0, 1, 0, 0);
            && ApplyRowAsWritten(top, row, "BASE.VDF", 1) == Some(Dir(map["A/B" := FileEntry("BASE.VDF", 0, 1, 1)], map[]))
            && ApplyRow(top, row, "BASE.VDF", 1) == top
  {
    var top := Dir(map["A/B" := FileEntry("PATCH.VDF", 0, 1, 5)], map[]);
    assert Find("A/B", '/') == 1;
    assert "A/B"[..1] == "A";
    assert !FileExist(top, "A/B");
    assert top.files["A/B" := FileEntry("BASE.VDF", 0, 1, 1)] == map["A/B" := FileEntry("BASE.VDF", 0, 1, 1)];
  }

  /** A file row named "A/B" where subdirectory "A" holds "B" but the file map has no
      "A/B" reaches the null dereference. */
  lemma SlashNameDereferencesNull()
    ensures var top := Dir(map[], map["A" := Dir(map["B" := FileEntry("BASE.VDF", 0, 1, 1)], map[])]);
            ApplyRowAsWritten(top, Row("A/B", 0, 1, 0, 0), "BASE.VDF", 2) == None
  {
    var top := Dir(map[], map["A" := Dir(map["B" := FileEntry("BASE.VDF", 0, 1, 1)], map[])]);
    assert Find("A/B", '/') == 1;
    assert "A/B"[..1] == "A" && "A/B"[2..] == "B";
    assert FileExist(top, "A/B");
  }

  /** `ApplyAt` with the file-row branch as written; `None` when that branch dereferences null. */
  function ApplyAtAsWritten(t: Dir, p: Path, row: Row, origin: string, ts: u32): Option<Dir>
    decreases |p|
  {
    if |p| == 0 then ApplyRowAsWritten(t, row, origin, ts)
    else if p[0] in t.subdirs then
      match ApplyAtAsWritten(t.subdirs[p[0]], p[1..], row, origin, ts)
      case None => None
      case Some(child) => Some(t.(subdirs := t.subdirs[p[0] := child]))
    else Some(t)
  }

  /** `Merge` with the file-row branch as written; `None` when a row dereferences null. */
  function MergeAsWritten(t: Dir, q: seq<Path>, data: seq<byte>, i: nat, count: nat,
                          origin: string, ts: u32): Option<LoadResult>
    decreases count - i
  {
    if i >= count then Some(LoadResult(true, t))
    else if |q| == 0 then Some(LoadResult(false, t))
    else match DecodeRow(data, RowPos(i))
      case None => Some(LoadResult(false, t))
      case Some(row) =>
        match ApplyAtAsWritten(t, q[0], row, origin, ts)
        case None => None
        case Some(t1) => MergeAsWritten(t1, NextQueue(q, row), data, i + 1, count, origin, ts)
  }

  /** One step of the pass, row i applied at the queue front. */
  lemma MergeStep(t: Dir, q: seq<Path>, data: seq<byte>, i: nat, count: nat, origin: string, ts: u32, row: Row)
    requires i < count && |q| > 0 && DecodeRow(data, RowPos(i)) == Some(row)
    ensures Merge(t, q, data, i, count, origin, ts)
         == Merge(ApplyAt(t, q[0], row, origin, ts), NextQueue(q, row), data, i + 1, count, origin, ts)
  {
  }

  /** One step of the written pass, when row i lands without a null dereference. */
  lemma MergeAsWrittenStep(t: Dir, q: seq<Path>, data: seq<byte>, i: nat, count: nat, origin: string, ts: u32,
                           row: Row, t1: Dir)
    requires i < count && |q| > 0 && DecodeRow(data, RowPos(i)) == Some(row)
    requires ApplyAtAsWritten(t, q[0], row, origin, ts) == Some(t1)
    ensures MergeAsWritten(t, q, data, i, count, origin, ts)
         == MergeAsWritten(t1, NextQueue(q, row), data, i + 1, count, origin, ts)
  {
  }

  /** `Mount` with the file-row branch as written; `None` when a row dereferences null. */
  function MountAsWritten(root: Dir, store: FileStore, path: string): Option<LoadResult> {
    if path !in store then Some(LoadResult(false, root))
    else match DecodeHeader(store[path])
      case None => Some(LoadResult(false, root))
      case Some(h) => MergeAsWritten(root, [[]], store[path], 0, h.entryCount, path, h.timeStamp)
  }

  /** Every row from `i` up to `count` that the volume holds has a name without `/`. */
  predicate SlashFreeRows(data: seq<byte>, i: nat, count: nat) {
    forall k :: i <= k < count && DecodeRow(data, RowPos(k)).Some? ==> SlashFree(DecodeRow(data, RowPos(k)).value.name)
  }

  /** Every row the header of the volume announces has a name without `/`. */
  predicate SlashFreeVolume(data: seq<byte>) {
    DecodeHeader(data).Some? ==> SlashFreeRows(data, 0, DecodeHeader(data).value.entryCount)
  }

  lemma {:induction false} ApplyAtAgreesWithoutSlash(t: Dir, p: Path, row: Row, origin: string, ts: u32)
    requires SlashFree(row.name)
    ensures ApplyAtAsWritten(t, p, row, origin, ts) == Some(ApplyAt(t, p, row, origin, ts))
    decreases |p|
  {
    if |p| == 0 {
      AsWrittenAgreesWithoutSlash(t, row, origin, ts);
    } else if p[0] in t.subdirs {
      ApplyAtAgreesWithoutSlash(t.subdirs[p[0]], p[1..], row, origin, ts);
    }
  }

  lemma {:induction false} MergeAgreesWithoutSlash(t: Dir, q: seq<Path>, data: seq<byte>, i: nat, count: nat,
                                                   origin: string, ts: u32)
    requires SlashFreeRows(data, i, count)
    ensures MergeAsWritten(t, q, data, i, count, origin, ts) == Some(Merge(t, q, data, i, count, origin, ts))
    decreases count - i
  {
    if i < count && |q| > 0 && DecodeRow(data, RowPos(i)).Some? {
      var row := DecodeRow(data, RowPos(i)).value;
      var t1 := ApplyAt(t, q[0], row, origin, ts);
      assert SlashFree(row.name);
      ApplyAtAgreesWithoutSlash(t, q[0], row, origin, ts);
      MergeStep(t, q, data, i, count, origin, ts, row);
      MergeAsWrittenStep(t, q, data, i, count, origin, ts, row, t1);
      MergeAgreesWithoutSlash(t1, NextQueue(q, row), data, i + 1, count, origin, ts);
    }
  }

  /** For a volume whose row names hold no `/`, the written pass never dereferences null
      and builds exactly the tree and verdict of `Mount`, so every property proved of
      `Mount` holds of the source on such volumes. */
  lemma MountAgreesWithoutSlash(root: Dir, store: FileStore, path: string)
    requires path in store ==> SlashFreeVolume(store[path])
    ensures MountAsWritten(root, store, path) == Some(Mount(root, store, path))
  {
    if path in store && DecodeHeader(store[path]).Some? {
      var h := DecodeHeader(store[path]).value;
      MergeAgreesWithoutSlash(root, [[]], store[path], 0, h.entryCount, path, h.timeStamp);
    }
  }
}

=== FILE: prelude.dfy ===
/** Basic value types shared by the whole model of the VDF reader. */
module Prelude {

  /** One byte of an archive or of an origin file. */
  type byte = x: int | 0 <= x < 0x100

  /** An `unsigned int` of the reader: 32 bits wide on every target the format is used on. */
  type u32 = x: int | 0 <= x < 0x1_0000_0000

  /** A value that may be missing; stands for a null pointer or a failed read. */
  datatype Option<+T> = None | Some(value: T)

  /** The host file system as far as the reader sees it: the bytes of every file that
      `fopen(path, "rb")` can open. A path that is absent fails to open. */
  type FileStore = map<string, seq<byte>>
}

=== FILE: tree.dfy ===
/** The in-memory directory tree a mount builds: `FileEntry` leaves and `DirectoryEntry`
    nodes, each node holding one name-keyed map of files and one of subdirectories. */
module Tree {
  import opened Prelude

  /** Where an embedded file lives: the archive it came from, its byte range there,
      and the time stamp of the volume that supplied it. */
  datatype FileEntry = FileEntry(origin: string, offset: u32, size: u32, timestamp: u32)

  /** A directory node. The two maps are independent: a name may be a key of both. */
  datatype Dir = Dir(files: map<string, FileEntry>, subdirs: map<string, Dir>)

  const EmptyDir := Dir(map[], map[])

  /** A directory named by the subdirectory names leading to it from the root. */
  type Path = seq<string>

  /** `p` leads from `d` to an existing directory. */
  predicate HasDir(d: Dir, p: Path)
    decreases |p|
  {
    |p| == 0 || (p[0] in d.subdirs && HasDir(d.subdirs[p[0]], p[1..]))
  }

  /** The directory `p` leads to. */
  function DirAt(d: Dir, p: Path): Dir
    requires HasDir(d, p)
    decreases |p|
  {
    if |p| == 0 then d else DirAt(d.subdirs[p[0]], p[1..])
  }

  /** A path extended by one name exists exactly when its parent holds that subdirectory. */
  lemma {:induction false} HasDirSnoc(d: Dir, p: Path, n: string)
    ensures HasDir(d, p + [n]) <==> HasDir(d, p) && n in DirAt(d, p).subdirs
    ensures HasDir(d, p + [n]) ==> DirAt(d, p + [n]) == DirAt(d, p).subdirs[n]
    decreases |p|
  {
    if |p| == 0 {
      assert p + [n] == [n];
      assert [n][1..] == [];
    } else {
      assert (p + [n])[1..] == p[1..] + [n];
      if p[0] in d.subdirs {
        HasDirSnoc(d.subdirs[p[0]], p[1..], n);
      }
    }
  }

  /** `DirectoryEntry::directoryEntryExist`: a direct subdirectory, no path traversal. */
  predicate DirectoryEntryExist(d: Dir, name: string) {
    name in d.subdirs
  }

  /** The test never traverses: it agrees with a one-step path and with nothing deeper. */
  lemma DirectoryEntryExistIsOneStep(d: Dir, name: string)
    ensures DirectoryEntryExist(d, name) <==> HasDir(d, [name])
  {
  }

  /** Position of the first `c` in `s` (`std::string::find_first_of` with one character). */
  function Find(s: string, c: char): (k: nat)
    requires c in s
    ensures k < |s| && s[k] == c
    ensures forall j :: 0 <= j < k ==> s[j] != c
  {
    if s[0] == c then 0 else 1 + Find(s[1..], c)
  }

  /** `DirectoryEntry::fileExist`: with no `/` the path names a file of this node;
      otherwise the part before the first `/` names a subdirectory to continue in. */
  predicate FileExist(d: Dir, path: string)
    decreases |path|
  {
    if '/' !in path then path in d.files
    else
      var k := Find(path, '/');
      var head, rest := path[..k], path[k + 1..];
      head in d.subdirs && FileExist(d.subdirs[head], rest)
  }

  /** `DirectoryEntry::getFile`: the same walk, yielding the leaf or nothing. */
  function GetFile(d: Dir, path: string): Option<FileEntry>
    decreases |path|
  {
    if '/' !in path then
      if path in d.files then Some(d.files[path]) else None
    else
      var k := Find(path, '/');
      var head, rest := path[..k], path[k + 1..];
      if head in d.subdirs then GetFile(d.subdirs[head], rest) else None
  }

  /** The two lookups agree: a path exists exactly when it yields a leaf. */
  lemma {:induction false} FileExistIffGetFile(d: Dir, path: string)
    ensures FileExist(d, path) <==> GetFile(d, path).Some?
    decreases |path|
  {
    if '/' in path {
      var k := Find(path, '/');
      if path[..k] in d.subdirs {
        FileExistIffGetFile(d.subdirs[path[..k]], path[k + 1..]);
      }
    }
  }

  /** The `/`-joined text of a directory path followed by a file name. */
  function PathOf(dirs: Path, name: string): string
    decreases |dirs|
  {
    if |dirs| == 0 then name else dirs[0] + "/" + PathOf(dirs[1..], name)
  }

  predicate SlashFree(s: string) {
    '/' !in s
  }

  lemma FirstSlashOfJoin(a: string, b: string)
    requires SlashFree(a)
    ensures '/' in a + "/" + b
    ensures Find(a + "/" + b, '/') == |a|
    ensures (a + "/" + b)[..|a|] == a && (a + "/" + b)[|a| + 1..] == b
  {
    var s := a + "/" + b;
    assert s[|a|] == '/';
    assert forall j :: 0 <= j < |a| ==> s[j] == a[j];
  }

  /** Lookup of a `/`-joined path finds exactly the leaf stored at that directory path:
      the lookup walk and the path model of the tree describe the same files. */
  lemma {:induction false} FindStoredFile(d: Dir, dirs: Path, name: string)
    requires forall k :: 0 <= k < |dirs| ==> SlashFree(dirs[k])
    requires SlashFree(name)
    ensures GetFile(d, PathOf(dirs, name))
         == if HasDir(d, dirs) && name in DirAt(d, dirs).files then Some(DirAt(d, dirs).files[name]) else None
    decreases |dirs|
  {
    if |dirs| > 0 {
      FirstSlashOfJoin(dirs[0], PathOf(dirs[1..], name));
      if dirs[0] in d.subdirs {
        FindStoredFile(d.subdirs[dirs[0]], dirs[1..], name);
      }
    }
  }
}

=== FILE: vdfs.dfy ===
/** The `VDFS` facade: separator normalisation, the existence and lookup queries on the
    merged tree, and extraction of an entry's bytes from its origin volume. */
module Vdfs {
  import opened Prelude
  import opened Tree

  /** Every `\` of a path turned into `/`. */
  function Normalize(p: string): string {
    seq(|p|, j requires 0 <= j < |p| => if p[j] == '\\' then '/' else p[j])
  }

  /** A normalised path holds no `\`; normalising again changes nothing; a path with no
      `\` is already normal. */
  lemma NormalizeSettles(p: string)
    ensures '\\' !in Normalize(p)
    ensures Normalize(Normalize(p)) == Normalize(p)
    ensures '\\' !in p ==> Normalize(p) == p
  {
    assert '\\' in p ==> p[Find(p, '\\')] == '\\';
  }

  /** The loop of `VDFS::fileExist` and `VDFS::getFileInfo`: replace the first `\` by `/`
      until none is left. */
  method NormalizeInPlace(p: string) returns (r: string)
    ensures r == Normalize(p)
  {
    r := p;
    while '\\' in r
      invariant |r| == |p|
      invariant forall j :: 0 <= j < |p| ==> r[j] == p[j] || (p[j] == '\\' && r[j] == '/')
      decreases set j | 0 <= j < |r| && r[j] == '\\'
    {
      var k := Find(r, '\\');
      ghost var before := set j | 0 <= j < |r| && r[j] == '\\';
      r := r[k := '/'];
      assert k in before;
      assert (set j | 0 <= j < |r| && r[j] == '\\') < before;
    }
    assert forall j :: 0 <= j < |p| ==> r[j] == Normalize(p)[j];
  }

  /** `VDFS::fileExist` as the source writes it: a path without `/` (after normalising) is
      reported present when the root holds NO file of that name. */
  predicate VolumeFileExistAsWritten(root: Dir, path: string) {
    var p := Normalize(path);
    if '/' !in p then p !in root.files else FileExist(root, p)
  }

  /** `VDFS::fileExist` as evidently intended: the root's path walk on the normalised path. */
  predicate VolumeFileExist(root: Dir, path: string) {
    FileExist(root, Normalize(path))
  }

  /** The written check is the intended one, inverted exactly for paths without a separator. */
  lemma FileExistInverted(root: Dir, path: string)
    ensures '/' in Normalize(path) ==> VolumeFileExistAsWritten(root, path) == VolumeFileExist(root, path)
    ensures '/' !in Normalize(path) ==> VolumeFileExistAsWritten(root, path) == !VolumeFileExist(root, path)
  {
  }

  /** `\` and `/` are interchangeable in both versions of the query. */
  lemma SeparatorsInterchangeable(root: Dir, path: string)
    ensures VolumeFileExistAsWritten(root, path) == VolumeFileExistAsWritten(root, Normalize(path))
    ensures VolumeFileExist(root, path) == VolumeFileExist(root, Normalize(path))
  {
    NormalizeSettles(path);
  }

  /** `VDFS::getFileInfo` as the source writes it: the normalised copy is built and then
      the caller's original text is looked up. */
  function FileInfoAsWritten(root: Dir, path: string): Option<FileEntry> {
    GetFile(root, path)
  }

  /** `VDFS::getFileInfo` as evidently intended: the normalised path is looked up. */
  function FileInfo(root: Dir, path: string): (r: Option<FileEntry>)
    ensures r.Some? <==> VolumeFileExist(root, path)
  {
    FileExistIffGetFile(root, Normalize(path));
    GetFile(root, Normalize(path))
  }

  /** The two versions differ only on paths that contain `\`. */
  lemma FileInfoAgreesWithoutBackslash(root: Dir, path: string)
    requires '\\' !in path
    ensures FileInfoAsWritten(root, path) == FileInfo(root, path)
  {
    NormalizeSettles(path);
  }

  /** "A\B" names file "B" of subdirectory "A" for `fileExist`, but the written
      `getFileInfo` looks for a root file called "A\B" and finds nothing. */
  lemma FileInfoDropsNormalisation()
    ensures var leaf := FileEntry("GAME.VDF", 296, 5, 1);
            var root := Dir(map[], map["A" := Dir(map["B" := leaf], map[])]);
            && VolumeFileExistAsWritten(root, "A\\B")
            && FileInfoAsWritten(root, "A\\B") == None
            && FileInfo(root, "A\\B") == Some(leaf)
  {
    assert Normalize("A\\B") == "A/B";
    assert Find("A/B", '/') == 1;
    assert "A/B"[..1] == "A" && "A/B"[2..] == "B";
  }

  // ---------------------------------------------------------------------------
  // Extraction.

  /** `FREAD_BUFFER_SIZE`. */
  const ChunkSize: nat := 4096

  /** The `n` bytes a read at `pos` of `file` delivers. Bytes past the end of the file are
      never read; the model fills them with 0. */
  function ReadAt(file: seq<byte>, pos: nat, n: nat): seq<byte> {
    seq(n, j requires 0 <= j < n => if pos + j < |file| then file[pos + j] else 0)
  }

  /** Consecutive reads cover one contiguous range. */
  lemma ReadAtConcat(file: seq<byte>, pos: nat, a: nat, b: nat)
    ensures ReadAt(file, pos, a) + ReadAt(file, pos + a, b) == ReadAt(file, pos, a + b)
  {
  }

  /** One `fread` of the extraction loop: where it starts in the origin file and how much it reads. */
  datatype Chunk = Chunk(start: nat, length: nat)

  /** The read loop of `VDFS::getFile`: full 4096-byte chunks while more than a chunk
      remains, then one final read of the rest. */
  method ReadChunked(file: seq<byte>, offset: u32, size: u32) returns (buf: seq<byte>, chunks: seq<Chunk>)
    requires size > 0
    ensures buf == ReadAt(file, offset, size)
    ensures |chunks| > 0
    ensures forall k :: 0 <= k < |chunks| ==> chunks[k].start == offset + ChunkSize * k
    ensures forall k :: 0 <= k < |chunks| - 1 ==> chunks[k].length == ChunkSize
    ensures 0 < chunks[|chunks| - 1].length <= ChunkSize
    ensures chunks[|chunks| - 1].start + chunks[|chunks| - 1].length == offset + size
  {
    var bytesRead: nat := 0;
    buf, chunks := [], [];
    while bytesRead + ChunkSize < size
      invariant bytesRead < size
      invariant bytesRead == ChunkSize * |chunks|
      invariant forall k :: 0 <= k < |chunks| ==> chunks[k] == Chunk(offset + ChunkSize * k, ChunkSize)
      invariant buf == ReadAt(file, offset, bytesRead)
      decreases size - bytesRead
    {
      ReadAtConcat(file, offset, bytesRead, ChunkSize);
      buf := buf + ReadAt(file, offset + bytesRead, ChunkSize);
      chunks := chunks + [Chunk(offset + bytesRead, ChunkSize)];
      bytesRead := bytesRead + ChunkSize;
    }
    ReadAtConcat(file, offset, bytesRead, size - bytesRead);
    buf := buf + ReadAt(file, offset + bytesRead, size - bytesRead);
    chunks := chunks + [Chunk(offset + bytesRead, size - bytesRead)];
  }

  /** What `VDFS::getFile` makes of an entry: nothing for a missing entry, an empty one, or
      an origin volume that no longer opens; otherwise `size` bytes from `offset` of the origin. */
  function ContentsOf(info: Option<FileEntry>, store: FileStore): Option<seq<byte>> {
    match info
    case None => None
    case Some(fe) =>
      if fe.size == 0 || fe.origin !in store then None
      else Some(ReadAt(store[fe.origin], fe.offset, fe.size))
  }

  /** `VDFS::getFile` as the source writes it: the entry comes from the written
      `getFileInfo`, which looks up the caller's text. */
  function FileContents(root: Dir, store: FileStore, path: string): Option<seq<byte>> {
    ContentsOf(FileInfoAsWritten(root, path), store)
  }

  /** `VDFS::getFile` as evidently intended: the entry comes from the normalised lookup. */
  function IntendedContents(root: Dir, store: FileStore, path: string): Option<seq<byte>> {
    ContentsOf(FileInfo(root, path), store)
  }

  /** `VDFS::getFile`: the written lookup, then the chunked read of the entry's bytes. */
  method ExtractFile(root: Dir, store: FileStore, path: string) returns (r: Option<seq<byte>>)
    ensures r == FileContents(root, store, path)
    ensures r.Some? ==> |r.value| == FileInfoAsWritten(root, path).value.size > 0
  {
    var info := FileInfoAsWritten(root, path);
    if info.None? || info.value.size == 0 {
      return None;
    }
    var fe := info.value;
    if fe.origin !in store {
      return None;
    }
    var buf, _ := ReadChunked(store[fe.origin], fe.offset, fe.size);
    return Some(buf);
  }

  /** The written and the intended extraction differ only on paths that contain `\`. */
  lemma ExtractionAgreesWithoutBackslash(root: Dir, store: FileStore, path: string)
    requires '\\' !in path
    ensures FileContents(root, store, path) == IntendedContents(root, store, path)
  {
    FileInfoAgreesWithoutBackslash(root, path);
  }

  /** With `A` holding a five-byte `B`, the written `getFile("A\B")` returns nothing, while
      the intended extraction returns the five bytes. */
  lemma ExtractionDropsNormalisation()
    ensures var root := Dir(map[], map["A" := Dir(map["B" := FileEntry("GAME.VDF", 0, 5, 1)], map[])]);
            var store := map["GAME.VDF" := [1, 2, 3, 4, 5]];
            && FileContents(root, store, "A\\B") == None
            && IntendedContents(root, store, "A\\B") == Some([1, 2, 3, 4, 5])
  {
    var store: FileStore := map["GAME.VDF" := [1, 2, 3, 4, 5]];
    assert Normalize("A\\B") == "A/B";
    assert Find("A/B", '/') == 1;
    assert "A/B"[..1] == "A" && "A/B"[2..] == "B";
    assert ReadAt(store["GAME.VDF"], 0, 5) == [1, 2, 3, 4, 5];
  }

  predicate SeparatorFree(s: string) {
    '/' !in s && '\\' !in s
  }

  lemma {:induction false} PathOfSeparatorFree(dirs: Path, name: string)
    requires forall k :: 0 <= k < |dirs| ==> SeparatorFree(dirs[k])
    requires SeparatorFree(name)
    ensures '\\' !in PathOf(dirs, name)
    decreases |dirs|
  {
    if |dirs| > 0 {
      PathOfSeparatorFree(dirs[1..], name);
    }
  }

  /** Every leaf stored in the tree is extracted, through its `/`-joined path, as exactly
      `size` bytes starting at `offset` of its own origin volume, by both the written and
      the intended extraction. */
  lemma StoredLeafExtracts(root: Dir, store: FileStore, dirs: Path, name: string)
    requires forall k :: 0 <= k < |dirs| ==> SeparatorFree(dirs[k])
    requires SeparatorFree(name)
    requires HasDir(root, dirs) && name in DirAt(root, dirs).files
    requires DirAt(root, dirs).files[name].size > 0 && DirAt(root, dirs).files[name].origin in store
    ensures var leaf := DirAt(root, dirs).files[name];
            && FileContents(root, store, PathOf(dirs, name)) == Some(ReadAt(store[leaf.origin], leaf.offset, leaf.size))
            && IntendedContents(root, store, PathOf(dirs, name)) == FileContents(root, store, PathOf(dirs, name))
  {
    PathOfSeparatorFree(dirs, name);
    FindStoredFile(root, dirs, name);
    ExtractionAgreesWithoutBackslash(root, store, PathOf(dirs, name));
  }

  /** A leaf stored under a name holding `/` cannot be reached: the walk splits the path at
      that `/` and looks for a subdirectory instead. */
  lemma SlashLeafUnreachable()
    ensures var root := Dir(map["A/B" := FileEntry("GAME.VDF", 0, 5, 1)], map[]);
            var store := map["GAME.VDF" := [1, 2, 3, 4, 5]];
            && !FileExist(root, "A/B")
            && FileContents(root, store, "A/B") == None
            && IntendedContents(root, store, "A/B") == None
  {
  }

  // ---------------------------------------------------------------------------
  // The loop guard of `VDFS::getFile` as written, in 32-bit unsigned arithmetic.

  const WordModulus: nat := 0x1_0000_0000

  /** `bytes_read + FREAD_BUFFER_SIZE < fe->size`, the sum wrapping at 2^32. */
  predicate ChunkGuardAsWritten(bytesRead: u32, size: u32) {
    (bytesRead + ChunkSize) % WordModulus < size
  }

  /** `bytes_read += FREAD_BUFFER_SIZE`, wrapping at 2^32. */
  function NextBytesReadAsWritten(bytesRead: u32): u32 {
    (bytesRead + ChunkSize) % WordModulus
  }

  /** Up to a size of 0xFFFFF000 the wrap never happens on a reachable counter, and the
      written guard is the unbounded one the model uses. */
  lemma ChunkGuardAgrees(bytesRead: u32, size: u32)
    requires bytesRead < size <= WordModulus - ChunkSize
    ensures ChunkGuardAsWritten(bytesRead, size) == (bytesRead + ChunkSize < size)
    ensures ChunkGuardAsWritten(bytesRead, size) ==> NextBytesReadAsWritten(bytesRead) == bytesRead + ChunkSize
  {
  }

  /** For a size of 0xFFFFFFFF every chunk boundary passes the guard; at 0xFFFFF000 the
      next chunk runs past the end of the buffer and the counter wraps back to 0, so the
      loop never reaches its final read. */
  lemma ChunkLoopWrapsAsWritten()
    ensures forall b: u32 :: b % ChunkSize == 0 && b < 0xFFFF_F000 ==>
              ChunkGuardAsWritten(b, 0xFFFF_FFFF) && NextBytesReadAsWritten(b) == b + ChunkSize
    ensures ChunkGuardAsWritten(0xFFFF_F000, 0xFFFF_FFFF)
    ensures 0xFFFF_F000 + ChunkSize > 0xFFFF_FFFF
    ensures NextBytesReadAsWritten(0xFFFF_F000) == 0
  {
  }
}
